=== FILE: README.md ===
# mq: a verified model of an in-memory topic queue

`mq` is a small Go message broker. Clients subscribe to named topics,
publish byte slices to a topic, and poll their subscription for the next
message. Every message published to a topic after a subscription was made
is delivered to that subscription exactly once, in publication order.

The messages of a topic are kept once, in one shared linked list
(`container/list`), however many subscriptions the topic has. Each list node
holds the payload and a count of the subscriptions that still have to read
it. A subscription is only a cursor into the list, or nil when it has
caught up. The queue also keeps the set of its caught-up ("empty")
subscriptions. Publishing pushes a node and points every caught-up cursor at
it. Reading moves the cursor to the next node and decrements the node's
count, and removes the node when the count reaches zero. Unsubscribing is
meant to read the subscription to the end, so that it releases every node it
still held. As written, it stops at the first nil payload (see Findings).

The model has three modules:

- `Cursors` (`cursors.dfy`) models the list as the sequence of its node ids
  and a cursor as an optional node id. `Unread(list, cursor)` is the suffix
  a cursor still has to read. Its lemmas cover `Next()`, `PushBack` and
  `Remove`.
- `Queues` (`queue.dfy`) models queue.go.
  - `QueueState` is a snapshot of a queue together with every
    subscription's cursor.
  - The invariant is `Consistent`. The list has no repetitions, every cursor
    points into it, a subscription is in the empty set exactly when its
    cursor is nil, and every node's count equals the number of subscriptions
    still to read it.
  - `Reclaimed` states that no stored node has a zero count.
  - `Pending(q)` is what each subscription will still receive, in order. It
    is the specification that every operation is proved against.
  - `AddedSub`, `Enqueued`, `Read`, `Drained`/`DeletedSub` are the queue's
    steps on values.
  - The class `Queue` keeps the fields of Go's `queue` and updates them in
    place. `AddSub`, `QueueMsg` and `ReadMsg` are proved to take the
    corresponding step. `Drain` and `DelSub` are proved against the backlogs
    and the invariant only (see "Left out").
- `Broker` (`registry.dfy`) models mq.go. `MQ` keeps
  `queues: map<string, QueueState>`, as Go keeps `map[string]queue`. The
  broker invariant `Healthy` states two things:
  - every queue is consistent, reclaimed and non-empty;
  - no subscription belongs to two topics.
  `Backlogs()` gives, for every topic, what each subscription will still
  receive. `Total(Counts())` is the number of subscriptions.

## Model

| member | source | states |
|---|---|---|
| Queues.QueueError.Error | queue.go:5-19 | The three error constants and their text; every text is non-empty. |
| Queues.ErrorTextIdentifies | queue.go:5-19 | Two QueueErrors are equal exactly when their texts are, so comparing an error with a constant identifies it. |
| Queues.Subscription.constructor | mq.go:28 | A new subscription has a nil cursor. |
| Cursors.Successor | queue.go:87 | `Element.Next()`: a successor, when there is one, is in the list. `UnreadSuccessor` states what moving to it does to a cursor. |
| Cursors.RemoveAt | queue.go:95 | `List.Remove`: the list is one node shorter. `DistinctRemoveAt` states that exactly the removed node is gone. |
| Cursors.IndexOf | queue.go:95 | The position of a listed node is in range and holds that node. |
| Cursors.IndexOfFirst | queue.go:95 | The found position is the node's first occurrence. |
| Cursors.UnreadSuccessor | queue.go:86-87 | Moving a cursor to `Next()` drops exactly the first node it had to read. |
| Cursors.UnreadPushBack | queue.go:68-73 | After `PushBack` of a fresh node, a busy cursor has what it had plus the new node. An idle cursor pointed at the new node has exactly that node. |
| Cursors.DistinctPushBack | queue.go:68 | Pushing a fresh node keeps the list free of repetitions. |
| Cursors.DistinctRemoveAt | queue.go:95 | `Remove` keeps the list free of repetitions and takes out exactly the removed node. |
| Cursors.UnreadRemoveAt | queue.go:95 | Removing a node another cursor does not hold leaves what that cursor has to read unchanged. |
| Cursors.UnreadRemoveAtSuccessor | queue.go:86-96 | Reading the successor before removing the node leaves the reader with the rest of what it had. |
| Cursors.UnreadDistinct | queue.go:86-87 | What a cursor has to read has no repetitions. |
| Queues.Decrement | queue.go:93 | `m.subs--` on a uint64: for a count in range, the result is in range and one less modulo 2^64. `ReaderCounted` shows the wrap-around is never reached. |
| Queues.AddedSub | queue.go:40-43 | addSub as a step on values. Its contract is stated by `AddSubKeeps`. |
| Queues.Attached | queue.go:70-73 | The loop of queueMsg on values: every idle cursor points at the new node. Its contract is stated by `Queues.Queue.AttachIdle` and `EnqueueHolders`. |
| Queues.Enqueued | queue.go:66-74 | queueMsg as a step on values. Its contract is stated by `EnqueueKeeps`, `EnqueuePending` and `EnqueuedAllAppends`. |
| Queues.Read | queue.go:76-99 | readMsg as a step on values, giving the new state and the payload read. Its contract is stated by `ReadKeeps` and `ReadPopped`. |
| Queues.RemovedSub | queue.go:57-58 | The two deletes at the end of delSub. Its contract is stated by `RemovedSubKeeps`. |
| Queues.Drained | queue.go:46-55 | The loop of delSub, corrected to stop when nothing is read. Its contract is stated by `DrainedKeeps`. |
| Queues.DeletedSub | queue.go:45-60 | delSub with the corrected loop. Its contract is stated by `DeletedSubKeeps`. |
| Queues.DrainedAsWritten | queue.go:46-55 | The loop of delSub as written: it stops when readMsg gives nothing or a nil payload. `NilThenEmptyStops` shows it stopping early. |
| Queues.DeletedSubAsWritten | queue.go:45-60 | delSub as written. `NilPayloadLeaks` shows it breaking the invariant. |
| Queues.NewQueue | queue.go:32-38 | A new queue is consistent and reclaimed, and nobody has anything to receive. |
| Queues.AddSubKeeps | queue.go:40-43 | addSub keeps the invariant. The new subscription has an empty backlog, and every other backlog is unchanged. |
| Queues.ReaderCounted | queue.go:93 | The node under a busy cursor has a count of at least one, so the uint64 decrement never wraps around. |
| Queues.IdleIffCaughtUp | queue.go:89-91 | A subscription is in the empty set exactly when its backlog is empty. |
| Queues.EnqueueKeeps | queue.go:66-74 | queueMsg keeps the invariant and appends the payload to every subscription's backlog. With at least one subscription it keeps the queue reclaimed. |
| Queues.EnqueuePending | queue.go:66-74 | After queueMsg, one subscription's backlog is its old backlog plus the payload. |
| Queues.EnqueueHolders | queue.go:67-73 | Every subscription must read the new node. Older nodes keep their readers. |
| Queues.ReadKeeps | queue.go:76-99 | readMsg keeps the invariant. A nil cursor returns nothing and changes nothing. Otherwise it returns the head of the backlog, which then leaves the reader's backlog and no other. The queue stays reclaimed. |
| Queues.ReadPopped | queue.go:76-99 | readMsg pops the reader's backlog (`Popped`): it returns the head or nothing, and every other backlog stays unchanged. |
| Queues.ReadUnread | queue.go:86-96 | After readMsg the reader has lost its first unread node. Every other subscription keeps exactly what it had. |
| Queues.SoleHolder | queue.go:93-96 | A node is removed only when no other subscription still has it to read. |
| Queues.RemovedSubKeeps | queue.go:57-58 | Removing a drained subscription from both sets keeps the invariant and drops only its own backlog. |
| Queues.DrainedKeeps | queue.go:46-55 | Draining (the corrected loop) empties the backlog and leaves the cursor nil. Other backlogs are kept, and no new node appears. |
| Queues.DeletedSubKeeps | queue.go:45-60 | delSub (corrected) keeps the invariant and removes exactly the subscription and its backlog. |
| Queues.DrainThenRemove | queue.go:45-60 | For a subscription of the queue, draining and then removing it keeps the invariant and removes exactly the subscription and its backlog. No new node appears. |
| Queues.StoredIffNeeded | queue.go:93-96 | In a consistent, reclaimed queue, a node is stored exactly when some subscription still has to read it. |
| Queues.NilThenEmptyConsistent | queue.go:21-30 | The counterexample queue is consistent and reclaimed. |
| Queues.NilThenEmptyPending | queue.go:21-30 | In the counterexample queue, `r` still has to receive a nil payload and then an empty one. |
| Queues.NilRead | queue.go:76-99 | On that queue, readMsg for `r` returns the nil payload. |
| Queues.NilThenEmptyStops | queue.go:46-55 | delSub's loop, as written, stops after that single read. |
| Queues.AfterNilLeaks | queue.go:57-58 | Removing `r` after that read leaves a node counted for a reader that is gone. |
| Queues.NilPayloadLeaks | queue.go:45-60 | delSub as written breaks the invariant: a node is left that will never be read or removed. |
| Queues.EnqueuedAllAppends | queue.go:66-74 | Publishing a sequence of messages appends all of them, in order, to every subscription's backlog. |
| Queues.EnqueueStep | queue.go:66-74 | One publish with a fresh id appends that message to one subscription's backlog and uses only ids below the next one. |
| Queues.DeliveriesStep | queue.go:76-99 | The first of n reads gives the head of the backlog or nothing; the rest continue from there. |
| Queues.ReadAllDelivers | queue.go:76-99 | n reads return the subscription's backlog in order, then nothing. |
| Queues.InOrderOnce | mq_test.go:24-37 | A caught-up subscription receives exactly the messages published after it, once each and in order, and then nothing. |
| Queues.Queue.constructor | queue.go:32-38 | newQueue: empty sets and an empty list, with a valid and reclaimed state and an empty backlog. |
| Queues.Queue.AddSub | queue.go:40-43 | addSub takes the AddedSub step: the new subscription has an empty backlog and the other backlogs are unchanged. |
| Queues.Queue.IsEmpty | queue.go:62-64 | The queue is empty exactly when it has no subscription, which is exactly when its backlog map is empty. |
| Queues.Queue.QueueMsg | queue.go:66-74 | queueMsg takes the `Enqueued` step with the next unused node id. It appends the payload to every backlog and keeps the invariant and the subscriptions. |
| Queues.Queue.Push | queue.go:67-73 | Pushing in place takes the Enqueued step with the next unused node id. |
| Queues.Queue.AttachIdle | queue.go:70-73 | The loop attaches every idle cursor to the new node and empties the idle set. Busy cursors are untouched. |
| Queues.Queue.ReadMsg | queue.go:76-99 | On a busy cursor, readMsg takes the `Read` step. It pops the reader's backlog, keeps the invariant, and returns nothing exactly when the cursor was nil. |
| Queues.Queue.Take | queue.go:81-98 | On a busy cursor, readMsg in place takes the Read step. |
| Queues.Queue.Advance | queue.go:86-91 | The cursor moves to `Next()`, and the subscription re-enters the empty set at the tail. |
| Queues.Queue.Release | queue.go:93-96 | The count drops by one as a uint64, and the node is removed at zero. |
| Queues.Queue.Drain | queue.go:46-55 | The (corrected) loop leaves the cursor nil, keeps the other backlogs and keeps the invariant. |
| Queues.Queue.DelSub | queue.go:45-60 | delSub removes exactly the subscription from both sets and exactly its backlog, and keeps the invariant. |
| Broker.TotalRemove | mq.go:79-85 | The sum does not depend on the order in which topics are taken. |
| Broker.TotalUpdate | mq.go:79-85 | Changing one topic's count changes the sum by the difference. |
| Broker.TotalAtLeastSize | mq.go:75-85 | When every topic has a subscription, the sum is at least the number of topics, and zero only when there is no topic. |
| Broker.TotalLowered | mq.go:79-85 | Lowering or removing one topic's count lowers the sum by the same amount. |
| Broker.Leave | mq.go:44-47 | Removing a subscription shrinks the set by one exactly when it was a member, and empties it exactly when it was the only member. |
| Broker.RestrictRemove | mq.go:81-83 | One loop step takes one topic's count out of the remaining sum. |
| Broker.HealthyUpdate | mq.go:30 | Storing a live queue whose subscriptions belong to no other topic keeps the broker invariant. |
| Broker.HealthyRemove | mq.go:46 | Deleting a topic keeps the broker invariant. |
| Broker.BacklogsUpdate | mq.go:30 | Storing a queue replaces exactly that topic's backlogs. |
| Broker.BacklogsRemove | mq.go:46 | Deleting a topic removes exactly its backlogs. |
| Broker.CountsUpdate | mq.go:30 | Storing a queue replaces exactly that topic's subscription count. |
| Broker.CountsRemove | mq.go:46 | Deleting a topic removes exactly its count. |
| Broker.SubscribeLive | mq.go:23-29 | addSub on an existing or new queue gives a live queue with one more subscription. |
| Broker.PublishLive | mq.go:60 | queueMsg gives a live queue below the next id, with the same subscriptions. |
| Broker.PollLive | mq.go:72 | readMsg gives a live queue with the same subscriptions. |
| Broker.UnsubscribeLive | mq.go:44 | delSub (corrected) gives a consistent, reclaimed queue without the subscription. |
| Broker.Joined | mq.go:23-26 | The queue a subscription joins: the topic's own, or a new one. Its contract is stated by `SubscribeKeeps`, `SubscribeBacklogs` and `SubscribeCounts`. |
| Broker.Left | mq.go:44-47 | The topics after delSub: the topic is deleted when its queue has no subscription left. Its contract is stated by `UnsubscribeKeeps`, `UnsubscribeBacklogs` and `UnsubscribeCounts`. |
| Broker.SubscribeKeeps | mq.go:19-33 | Subscribe keeps the broker invariant, whether or not the topic existed. |
| Broker.SubscribeBacklogs | mq.go:19-33 | After Subscribe, the newcomer has an empty backlog and every other backlog, in any topic, is unchanged. |
| Broker.SubscribeCounts | mq.go:19-33 | Subscribe adds exactly one subscription to the total. |
| Broker.UnsubscribeKeeps | mq.go:35-49 | Unsubscribe keeps the broker invariant. The topic's queue is left empty exactly when the subscription was all it had. |
| Broker.UnsubscribeBacklogs | mq.go:35-49 | Unsubscribe removes only the subscription's backlog, and removes the whole topic when it has no subscription left. |
| Broker.UnsubscribeCounts | mq.go:35-49 | Unsubscribe lowers the total by one exactly when the subscription belonged to the topic. |
| Broker.PublishKeeps | mq.go:51-61 | Publish keeps the broker invariant, with a fresh id for the node. |
| Broker.PublishBacklogs | mq.go:51-61 | Publish appends the message to every backlog of the topic. Other topics are unchanged. |
| Broker.PollKeeps | mq.go:63-73 | Poll keeps the broker invariant. |
| Broker.PollBacklogs | mq.go:63-73 | Poll pops the subscription's backlog. Other topics are unchanged. |
| Broker.MQ.constructor | mq.go:12-17 | New: a broker with no topics, satisfying the invariant. |
| Broker.MQ.Subscribe | mq.go:19-33 | A fresh subscription joins the topic, which is created if missing. The newcomer has an empty backlog, every other backlog is unchanged, and the total grows by one. |
| Broker.MQ.Unsubscribe | mq.go:35-49 | A missing topic is left unchanged. Otherwise only the subscription's backlog is removed, the topic is deleted exactly when it loses its last subscription, and the total drops by one exactly when the subscription was the topic's. |
| Broker.MQ.Publish | mq.go:51-61 | On a missing topic the message is dropped. Otherwise every subscription of the topic gets it at the end of its backlog, and other topics are unchanged. |
| Broker.MQ.Poll | mq.go:63-73 | A missing topic gives NoTopic and no payload. Otherwise there is no error and the subscription's backlog is popped; a non-subscriber gets nothing. Other topics are unchanged. |
| Broker.MQ.Topics | mq.go:75-77 | The number of topics. Its contract is stated by `TopicsAtMostSubscriptions`. |
| Broker.MQ.Subscriptions | mq.go:79-85 | The loop returns the total number of subscriptions over all topics. |
| Broker.MQ.TopicsAtMostSubscriptions | mq.go:75-77 | There are never more topics than subscriptions, and there is no topic exactly when there is no subscription. |

## Left out

- The mutex `qLock` and the concurrency it guards. Each operation is modelled as one atomic step.
- Broker.MQ: the broker holds each queue as a `QueueState` value and applies the value steps of `Queues` to it. It does not call the methods of `Queues.Queue` on shared queue objects. So at broker level a subscription's cursor lives in the queue's value rather than in the `Subscription` object. In Go, `mq.queues[topic]` is a struct copy that shares its maps and list with the stored one, so the two agree. The in-place updates of those structures are modelled by the `Queue` class.
- Broker.MQ.Unsubscribe and Broker.MQ.Poll: when the topic is present, a subscription of another topic is excluded by their requires. In Go its cursor may point into the other topic's list. readMsg would then move that cursor along the other list and decrement the other topic's counts (queue.go:87, 93). It would not unlink anything: `Remove` on the polled topic's list ignores an element of another list (queue.go:95), so a node whose count reaches zero stays linked and is never reclaimed. At the other list's tail the handle would join this topic's empty set (queue.go:89-91), although this topic's nodes never counted it, and a later delSub through Unsubscribe would delete it there, leaving its own topic's empty set out of step with its nil cursor. On a missing topic any handle is accepted, as in Go.
- Queues.Queue.ReadMsg, Queues.Queue.Drain and Queues.Queue.DelSub: they require the subscription to belong to the queue or to have a nil cursor. For the same reason, a handle whose cursor points into another queue's list is excluded.
- Queues.Queue.ReadMsg and Broker.MQ.Poll: the model's result is richer than Go's. `None` means nothing was read and `Some(Nil)` means a nil payload was read. Go's readMsg returns `m.data` (queue.go:98) and nil on a nil cursor (queue.go:77-78), so its caller sees nil in both cases. The Finding below rests on exactly this: delSub cannot tell the two apart.
- The `InvalidDataError` branch of readMsg (queue.go:81-85): every list element is a `*msg`, so the type assertion cannot fail. delSub's error return is therefore never taken either. `NoSubError` is declared but never returned.
- Payload bytes are opaque. Only a nil slice (`Nil`) is told apart from a non-nil one, which may be empty.
- Go's map iteration order (queueMsg's loop, Subscriptions) is an arbitrary choice in the model.
- Queues.Queue.Drain and Queues.Queue.DelSub state the effect on the backlogs and the invariant. They are not tied to the values `Drained`/`DeletedSub`. Their loop stops at the first `None`, the corrected condition (see Findings).
- Broker.MQ.Unsubscribe, Broker.UnsubscribeLive, Broker.UnsubscribeKeeps, Broker.UnsubscribeBacklogs and Broker.UnsubscribeCounts apply the corrected `DeletedSub`. On the input of the Finding the broker therefore stays valid, where Go leaks a node. The as-written behaviour is modelled only at queue level (`DeletedSubAsWritten`, `NilPayloadLeaks`).
- Broker.UnsubscribeLive: consistency and reclamation are proved of the corrected `DeletedSub`. Go's delSub as written does not keep them when a nil payload is followed by another node (`NilPayloadLeaks`).
- Queues.Queue.QueueMsg: on a queue with no subscription it pushes a node with count zero that is never removed. That state cannot be reached through `MQ`, which deletes a topic with its last subscription. So the reclaimed property is stated only for a queue with a subscription.
- Broker.MQ.Topics: its contract is stated by `TopicsAtMostSubscriptions`.
- Queues.Decrement: the uint64 wrap-around is modelled. `ReaderCounted` shows it is never reached.

## Findings

| source | as written | input that shows it | evidently intended | confidence | as-written member | corrected member |
|---|---|---|---|---|---|---|
| queue.go:45-60 | delSub reads until `readMsg` returns a nil slice. A message published with a nil payload is also returned as nil, so the loop stops there. Nodes after it keep the departed subscription's count and are never freed. | `NilThenEmpty`: `r` has a nil payload and then an empty one to read, and `s` is caught up. After delSub(r), node 1 has count 1 but no reader. | Drain until the cursor is nil (nothing read), whatever the payload. | not executed | Queues.NilPayloadLeaks | Queues.DeletedSubKeeps |

=== FILE: cursors.dfy ===
/**
 * The message list of one topic (Go's container/list) and the cursors that
 * point into it.
 *
 * The list is kept as the sequence of its node ids, front to back; a node id
 * stands for a *list.Element. A cursor is either Some(node) or None (Go's nil).
 * What a cursor still has to read is the node it points at and every node
 * after it: `Unread`.
 */
module Cursors {

  /** Identity of a node of the list (a *list.Element). */
  type NodeId = nat

  datatype Option<T> = None | Some(value: T)

  /** Position of node `n` in the list: its first occurrence (see `IndexOfFirst`). */
  function IndexOf(list: seq<NodeId>, n: NodeId): (i: nat)
    requires n in list
    ensures i < |list| && list[i] == n
  {
    IndexFrom(list, n, 0)
  }

  /** The first position at or after `from` that holds node `n`. */
  function IndexFrom(list: seq<NodeId>, n: NodeId, from: nat): (i: nat)
    requires exists k :: from <= k < |list| && list[k] == n
    ensures from <= i < |list| && list[i] == n
    decreases |list| - from
  {
    if list[from] == n then from else IndexFrom(list, n, from + 1)
  }

  /** No position between `from` and the one `IndexFrom` finds holds `n`. */
  lemma {:induction false} IndexFromFirst(list: seq<NodeId>, n: NodeId, from: nat, j: nat)
    requires exists k :: from <= k < |list| && list[k] == n
    requires from <= j < IndexFrom(list, n, from)
    ensures list[j] != n
    decreases |list| - from
  {
    if j > from {
      IndexFromFirst(list, n, from + 1, j);
    }
  }

  /** `IndexOf` finds the first occurrence: no earlier position holds `n`. */
  lemma IndexOfFirst(list: seq<NodeId>, n: NodeId, j: nat)
    requires n in list && j < IndexOf(list, n)
    ensures list[j] != n
  {
    IndexFromFirst(list, n, 0, j);
  }

  /**
   * No node occurs twice in the list: the first occurrence of every element
   * is its own position.
   */
  ghost predicate Distinct(list: seq<NodeId>) {
    forall i {:trigger IndexOf(list, list[i])} :: 0 <= i < |list| ==> IndexOf(list, list[i]) == i
  }

  /** Two positions of a list without repetitions hold different nodes. */
  lemma DistinctAt(list: seq<NodeId>, a: nat, b: nat)
    requires Distinct(list) && a < |list| && b < |list| && a != b
    ensures list[a] != list[b]
  {
    assert IndexOf(list, list[a]) == a;
    assert IndexOf(list, list[b]) == b;
  }

  /** A position whose node does not occur earlier is that node's first occurrence. */
  lemma FirstOccurrence(list: seq<NodeId>, i: nat)
    requires i < |list|
    requires forall j :: 0 <= j < i ==> list[j] != list[i]
    ensures IndexOf(list, list[i]) == i
  {
    if IndexOf(list, list[i]) > i {
      IndexOfFirst(list, list[i], i);
    }
  }

  /** Element.Next(): the node after `n`, or None when `n` is the last one. */
  function Successor(list: seq<NodeId>, n: NodeId): (r: Option<NodeId>)
    requires n in list
    ensures r.Some? ==> r.value in list
  {
    var i := IndexOf(list, n);
    if i + 1 < |list| then Some(list[i + 1]) else None
  }

  /** List.Remove(e) for the element at position `p`. */
  function RemoveAt(list: seq<NodeId>, p: nat): (r: seq<NodeId>)
    requires p < |list|
    ensures |r| == |list| - 1
  {
    list[..p] + list[p + 1..]
  }

  /** The nodes a cursor still has to read, in list order. */
  function Unread(list: seq<NodeId>, cursor: Option<NodeId>): (r: seq<NodeId>)
    ensures forall k :: k in r ==> k in list
  {
    match cursor
    case None => []
    case Some(n) => if n in list then list[IndexOf(list, n)..] else []
  }

  lemma IndexOfDistinct(list: seq<NodeId>, i: nat)
    requires Distinct(list) && i < |list|
    ensures IndexOf(list, list[i]) == i
  {
  }

  /** A cursor that points into the list has something to read, starting with its own node. */
  lemma UnreadStartsAtCursor(list: seq<NodeId>, n: NodeId)
    requires n in list
    ensures Unread(list, Some(n)) != [] && Unread(list, Some(n))[0] == n
  {
  }

  /** Every suffix of a list without repetitions is without repetitions. */
  lemma UnreadDistinct(list: seq<NodeId>, cursor: Option<NodeId>)
    requires Distinct(list)
    ensures Distinct(Unread(list, cursor))
  {
    if cursor.Some? && cursor.value in list {
      var k := IndexOf(list, cursor.value);
      var s := list[k..];
      forall j | 0 <= j < |s|
        ensures IndexOf(s, s[j]) == j
      {
        forall i | 0 <= i < j
          ensures s[i] != s[j]
        {
          DistinctAt(list, k + i, k + j);
        }
        FirstOccurrence(s, j);
      }
    }
  }

  /**
   * Moving a cursor to the successor of its node (Element.Next) drops exactly
   * the first unread node and keeps the rest.
   */
  lemma UnreadSuccessor(list: seq<NodeId>, n: NodeId)
    requires Distinct(list) && n in list
    ensures Unread(list, Successor(list, n)) == Unread(list, Some(n))[1..]
  {
    var i := IndexOf(list, n);
    if i + 1 < |list| {
      IndexOfDistinct(list, i + 1);
    }
  }

  /**
   * PushBack of a fresh node `x`: a cursor that pointed into the list keeps
   * its unread nodes and gains `x` at the end; an idle cursor that is
   * attached to `x` has exactly `x` to read.
   */
  lemma {:induction false} UnreadPushBack(list: seq<NodeId>, x: NodeId, cursor: Option<NodeId>)
    requires x !in list
    requires cursor.Some? ==> cursor.value in list
    ensures Unread(list + [x], if cursor.None? then Some(x) else cursor) == Unread(list, cursor) + [x]
  {
    var list' := list + [x];
    match cursor
    case None =>
      var i := IndexOf(list', x);
      assert list'[|list|] == x;
      assert list'[i..] == [x];
    case Some(n) =>
      var i, i' := IndexOf(list, n), IndexOf(list', n);
      assert list'[i] == n;
      forall j | 0 <= j < i
        ensures list'[j] != list'[i]
      {
        IndexOfFirst(list, n, j);
      }
      FirstOccurrence(list', i);
      assert list'[i..] == list[i..] + [x];
  }

  /** Pushing a node that is not in the list at its back keeps it without repetitions. */
  lemma DistinctPushBack(list: seq<NodeId>, x: NodeId)
    requires Distinct(list) && x !in list
    ensures Distinct(list + [x])
  {
    var l := list + [x];
    forall j | 0 <= j < |l|
      ensures IndexOf(l, l[j]) == j
    {
      forall i | 0 <= i < j
        ensures l[i] != l[j]
      {
        if j < |list| {
          DistinctAt(list, i, j);
        }
      }
      FirstOccurrence(l, j);
    }
  }

  /** A cursor with something to read points into the list. */
  lemma UnreadListed(list: seq<NodeId>, n: NodeId)
    requires Unread(list, Some(n)) != []
    ensures n in list
  {
  }

  /** Removing a node from the list keeps it without repetitions. */
  lemma DistinctRemoveAt(list: seq<NodeId>, p: nat)
    requires Distinct(list) && p < |list|
    ensures Distinct(RemoveAt(list, p))
    ensures forall k :: k in RemoveAt(list, p) <==> k in list && k != list[p]
  {
    var r := RemoveAt(list, p);
    forall j | 0 <= j < |r|
      ensures IndexOf(r, r[j]) == j
    {
      forall i | 0 <= i < j
        ensures r[i] != r[j]
      {
        var a := if i < p then i else i + 1;
        var b := if j < p then j else j + 1;
        assert r[i] == list[a] && r[j] == list[b] && a < b;
        DistinctAt(list, a, b);
      }
      FirstOccurrence(r, j);
    }
    forall k
      ensures k in r <==> k in list && k != list[p]
    {
      if k in r {
        var i :| 0 <= i < |r| && r[i] == k;
        var a := if i < p then i else i + 1;
        assert list[a] == k;
        DistinctAt(list, a, p);
      }
      if k in list && k != list[p] {
        var a :| 0 <= a < |list| && list[a] == k;
        assert a != p;
        if a < p {
          assert r[a] == k;
        } else {
          assert r[a - 1] == k;
        }
      }
    }
  }

  /**
   * Removing the node at position `p` does not change what a cursor placed
   * after `p` has to read.
   */
  lemma UnreadRemoveAt(list: seq<NodeId>, p: nat, cursor: Option<NodeId>)
    requires Distinct(list) && p < |list|
    requires cursor.Some? ==> cursor.value in list
    requires list[p] !in Unread(list, cursor)
    ensures Unread(RemoveAt(list, p), cursor) == Unread(list, cursor)
  {
    if cursor.Some? {
      var r := RemoveAt(list, p);
      var n := cursor.value;
      var q := IndexOf(list, n);
      DistinctRemoveAt(list, p);
      assert r[q - 1] == n;
      IndexOfDistinct(r, q - 1);
      assert r[q - 1..] == list[q..];
    }
  }

  /**
   * Reading the node at position `p` and then removing it (queue.go reads
   * Next() before Remove) leaves the cursor with the rest of what it had.
   */
  lemma UnreadRemoveAtSuccessor(list: seq<NodeId>, p: nat)
    requires Distinct(list) && p < |list|
    ensures Unread(RemoveAt(list, p), Successor(list, list[p])) == Unread(list, Some(list[p]))[1..]
  {
    var r := RemoveAt(list, p);
    IndexOfDistinct(list, p);
    if p + 1 < |list| {
      DistinctRemoveAt(list, p);
      assert r[p] == list[p + 1];
      IndexOfDistinct(r, p);
      assert r[p..] == list[p + 1..];
    }
  }
}

=== FILE: queue.dfy ===
/**
 * The per-topic queue of queue.go: one list of message nodes shared by every
 * subscription of the topic. Each node counts the subscriptions that still
 * have to read it; each subscription is only a cursor into the list.
 *
 * The first half works on values: `QueueState` is a snapshot of a queue
 * (with every subscription's cursor), `Consistent` is the invariant that
 * makes the reference counts right, `Pending` is what each subscription
 * still has to receive, and `AddedSub`, `Enqueued`, `Read` and `RemovedSub`
 * are the four steps the queue takes. The lemmas prove that each step keeps
 * the invariant and acts on `Pending` as a first-in first-out queue per
 * subscription. The second half is the `Queue` class, whose methods update
 * its fields in place as the Go code does. `AddSub`, `QueueMsg` and `ReadMsg`
 * are proved to take the corresponding steps; `Drain` and `DelSub` use the
 * corrected loop (see `Drained`) and are proved against the backlogs and the
 * invariant only.
 */
module Queues {
  import opened Cursors

  /** A payload: a Go byte slice, which may be nil. Its bytes are opaque here. */
  datatype Payload = Nil | Bytes(bytes: seq<bv8>)

  /** QueueError and its three constants. */
  datatype QueueError = NoSub | NoTopic | InvalidData {
    /** The text Error() returns. */
    function Error(): (text: string)
      ensures text != []
    {
      match this
      case NoSub => "nosub"
      case NoTopic => "notop"
      case InvalidData => "invalid"
    }
  }

  /**
   * A QueueError is its text: two errors with the same text are the same
   * error, so callers can compare an error with a constant.
   */
  lemma ErrorTextIdentifies(e: QueueError, f: QueueError)
    ensures e.Error() == f.Error() <==> e == f
  {
  }

  /** A list node: the payload and the number of subscriptions yet to read it (a uint64). */
  datatype Msg = Msg(data: Payload, subs: nat)

  /** The largest uint64. */
  const MaxCount: nat := 0xFFFF_FFFF_FFFF_FFFF

  /** `m.subs--` on a uint64: zero wraps around to the largest value. */
  function Decrement(c: nat): (r: nat)
    ensures c <= MaxCount ==> r <= MaxCount && (r + 1) % (MaxCount + 1) == c
  {
    if c == 0 then MaxCount else c - 1
  }

  /** A subscriber's handle: a cursor at the next node to read, or None when caught up. */
  class Subscription {
    var nextMsg: Option<NodeId>

    constructor ()
      ensures nextMsg == None
    {
      nextMsg := None;
    }
  }

  /** A snapshot of a queue, with the cursor of every subscription. */
  datatype QueueState = QueueState(
    subs: set<Subscription>,
    emptySubs: set<Subscription>,
    cursor: map<Subscription, Option<NodeId>>,
    list: seq<NodeId>,
    nodes: map<NodeId, Msg>)

  /** The subscriptions that still have to read node `n`: those at or before it. */
  ghost function Holders(q: QueueState, n: NodeId): set<Subscription> {
    set s | s in q.subs && s in q.cursor && n in Unread(q.list, q.cursor[s])
  }

  /**
   * The shape of a queue: a subscription is idle exactly when its cursor is
   * None, every cursor points into the list, the list holds each node once,
   * and exactly the listed nodes are stored.
   */
  ghost predicate WellFormed(q: QueueState) {
    && q.cursor.Keys == q.subs
    && q.emptySubs <= q.subs
    && (forall s :: s in q.subs ==> (s in q.emptySubs <==> q.cursor[s] == None))
    && (forall s :: s in q.subs && q.cursor[s].Some? ==> q.cursor[s].value in q.list)
    && Distinct(q.list)
    && (forall n :: n in q.nodes <==> n in q.list)
  }

  /** Node `n`, if listed, counts exactly the subscriptions that still have to read it. */
  ghost predicate CountedAt(q: QueueState, n: NodeId) {
    n in q.list ==> n in q.nodes && q.nodes[n].subs == |Holders(q, n)|
  }

  /** Each listed node counts exactly the subscriptions that still have to read it. */
  ghost predicate Counted(q: QueueState) {
    forall n :: CountedAt(q, n)
  }

  /** The queue invariant. */
  ghost predicate Consistent(q: QueueState) {
    WellFormed(q) && Counted(q)
  }

  /** Every stored node still has a reader: nothing is kept that nobody will read. */
  ghost predicate Reclaimed(q: QueueState) {
    forall n :: n in q.nodes ==> q.nodes[n].subs > 0
  }

  /** The payloads of the nodes `ids`, in order. */
  ghost function Payloads(nodes: map<NodeId, Msg>, ids: seq<NodeId>): (r: seq<Payload>)
    requires forall k :: k in ids ==> k in nodes
    ensures |r| == |ids|
  {
    seq(|ids|, i requires 0 <= i < |ids| => nodes[ids[i]].data)
  }

  /**
   * `b'` is the backlogs `b` after `r` read once: the head of `r`'s backlog
   * is returned and leaves it, or nothing is returned and nothing changes
   * when that backlog is empty.
   */
  ghost predicate Popped(b: map<Subscription, seq<Payload>>, b': map<Subscription, seq<Payload>>,
                         r: Subscription, data: Option<Payload>)
  {
    && r in b
    && if b[r] == [] then data == None && b' == b
       else data == Some(b[r][0]) && b' == b[r := b[r][1..]]
  }

  /** What each subscription will still receive, in order. */
  ghost function Pending(q: QueueState): (p: map<Subscription, seq<Payload>>)
    requires WellFormed(q)
    ensures p.Keys == q.subs
  {
    map s | s in q.subs :: Payloads(q.nodes, Unread(q.list, q.cursor[s]))
  }

  // ---------------------------------------------------------------------
  // The four steps, on values.

  /** newQueue: no subscription and an empty list; consistent, with nothing for anyone. */
  function NewQueue(): (q: QueueState)
    ensures Consistent(q) && Reclaimed(q) && Pending(q) == map[]
  {
    QueueState({}, {}, map[], [], map[])
  }

  /** addSub: the subscription joins both sets, with a nil cursor. */
  function AddedSub(q: QueueState, r: Subscription): QueueState {
    q.(subs := q.subs + {r}, emptySubs := q.emptySubs + {r}, cursor := q.cursor[r := None])
  }

  /** The cursors after every idle one is attached to node `x`. */
  function Attached(cursor: map<Subscription, Option<NodeId>>, idle: set<Subscription>, x: NodeId)
    : map<Subscription, Option<NodeId>>
  {
    map s | s in cursor :: if s in idle then Some(x) else cursor[s]
  }

  /**
   * queueMsg: node `x` is pushed at the back with one count per subscription,
   * and every idle cursor is attached to it.
   */
  function Enqueued(q: QueueState, x: NodeId, data: Payload): QueueState {
    QueueState(
      q.subs,
      {},
      Attached(q.cursor, q.emptySubs, x),
      q.list + [x],
      q.nodes[x := Msg(data, |q.subs|)])
  }

  /**
   * readMsg for a subscription of the queue: nothing on a nil cursor;
   * otherwise the cursor moves to the successor (re-entering the idle set at
   * the tail), the node's count drops by one, and the node is removed when
   * the count reaches zero. Gives the new state and the payload read. The
   * decrement is the unsigned one; in a consistent queue the count at the
   * cursor is at least one (`ReaderCounted`), so it never wraps.
   */
  function Read(q: QueueState, r: Subscription): (QueueState, Option<Payload>)
    requires WellFormed(q) && r in q.subs
  {
    match q.cursor[r]
    case None => (q, None)
    case Some(n) =>
      var m := q.nodes[n];
      var next := Successor(q.list, n);
      var emptySubs := if next == None then q.emptySubs + {r} else q.emptySubs;
      var left := Decrement(m.subs);
      if left == 0 then
        (QueueState(q.subs, emptySubs, q.cursor[r := next], RemoveAt(q.list, IndexOf(q.list, n)), q.nodes - {n}),
         Some(m.data))
      else
        (QueueState(q.subs, emptySubs, q.cursor[r := next], q.list, q.nodes[n := m.(subs := left)]),
         Some(m.data))
  }

  /** The last step of delSub: the subscription leaves both sets. */
  function RemovedSub(q: QueueState, r: Subscription): QueueState {
    q.(subs := q.subs - {r}, emptySubs := q.emptySubs - {r}, cursor := q.cursor - {r})
  }

  // ---------------------------------------------------------------------
  // What the steps preserve.

  /** A subscription whose cursor points at node `n` is one of the holders of `n`. */
  lemma ReaderHolds(q: QueueState, r: Subscription)
    requires WellFormed(q) && r in q.subs && q.cursor[r].Some?
    ensures r in Holders(q, q.cursor[r].value)
  {
    UnreadStartsAtCursor(q.list, q.cursor[r].value);
  }

  /**
   * The node under a busy cursor counts its reader, so the count is at least
   * one and the decrement in readMsg cannot wrap around.
   */
  lemma ReaderCounted(q: QueueState, r: Subscription)
    requires Consistent(q) && r in q.subs && q.cursor[r].Some?
    ensures q.nodes[q.cursor[r].value].subs >= 1
  {
    var n := q.cursor[r].value;
    ReaderHolds(q, r);
    assert CountedAt(q, n);
    assert {r} <= Holders(q, n);
  }

  /** A subscription is in the idle set exactly when it has nothing left to receive. */
  lemma IdleIffCaughtUp(q: QueueState, r: Subscription)
    requires Consistent(q) && r in q.subs
    ensures r in q.emptySubs <==> Pending(q)[r] == []
  {
    if q.cursor[r].Some? {
      UnreadStartsAtCursor(q.list, q.cursor[r].value);
    }
  }

  /** The payloads of `ids` depend only on the data stored for `ids`. */
  lemma PayloadsAgree(nodes: map<NodeId, Msg>, nodes': map<NodeId, Msg>, ids: seq<NodeId>)
    requires forall k :: k in ids ==> k in nodes && k in nodes' && nodes'[k].data == nodes[k].data
    ensures Payloads(nodes', ids) == Payloads(nodes, ids)
  {
  }

  lemma PayloadsAppend(nodes: map<NodeId, Msg>, ids: seq<NodeId>, x: NodeId)
    requires forall k :: k in ids ==> k in nodes
    requires x in nodes
    ensures Payloads(nodes, ids + [x]) == Payloads(nodes, ids) + [nodes[x].data]
  {
  }

  /**
   * addSub keeps the invariant; the new subscription has nothing to receive
   * and every other subscription's backlog is unchanged.
   */
  lemma AddSubKeeps(q: QueueState, r: Subscription)
    requires Consistent(q) && r !in q.subs
    ensures Consistent(AddedSub(q, r))
    ensures Pending(AddedSub(q, r)) == Pending(q)[r := []]
  {
    var q' := AddedSub(q, r);
    assert WellFormed(q');
    forall n
      ensures CountedAt(q', n)
    {
      assert CountedAt(q, n);
      AddSubHolders(q, r, n);
    }
    forall s | s in q.subs
      ensures Pending(q')[s] == Pending(q)[s]
    {
    }
    UpdatedAt(Pending(q), Pending(q'), r, []);
  }

  /** A subscription that joins with a nil cursor holds no node. */
  lemma AddSubHolders(q: QueueState, r: Subscription, n: NodeId)
    requires WellFormed(q) && r !in q.subs
    ensures Holders(AddedSub(q, r), n) == Holders(q, n)
  {
    var q' := AddedSub(q, r);
    forall s | s in q'.subs
      ensures s in Holders(q', n) <==> s in Holders(q, n)
    {
    }
  }

  /** After queueMsg a subscription has exactly what it had, plus node `x`. */
  lemma EnqueuedUnread(q: QueueState, x: NodeId, data: Payload, s: Subscription)
    requires WellFormed(q) && x !in q.nodes && s in q.subs
    ensures Unread(Enqueued(q, x, data).list, Enqueued(q, x, data).cursor[s]) == Unread(q.list, q.cursor[s]) + [x]
  {
    UnreadPushBack(q.list, x, q.cursor[s]);
  }

  lemma EnqueueWellFormed(q: QueueState, x: NodeId, data: Payload)
    requires WellFormed(q) && x !in q.nodes
    ensures WellFormed(Enqueued(q, x, data))
  {
    var q' := Enqueued(q, x, data);
    assert q'.cursor.Keys == q'.subs;
    DistinctPushBack(q.list, x);
  }

  /** The new node is held by every subscription; every older node by the same ones as before. */
  lemma EnqueueHolders(q: QueueState, x: NodeId, data: Payload, n: NodeId)
    requires WellFormed(q) && x !in q.nodes
    ensures Holders(Enqueued(q, x, data), n) == if n == x then q.subs else Holders(q, n)
  {
    var q' := Enqueued(q, x, data);
    forall s | s in q.subs
      ensures s in Holders(q', n) <==> (n == x || s in Holders(q, n))
    {
      EnqueueHolder(q, x, data, n, s);
    }
  }

  /** After queueMsg, `s` holds the new node, and an older node exactly when it held it before. */
  lemma EnqueueHolder(q: QueueState, x: NodeId, data: Payload, n: NodeId, s: Subscription)
    requires s in q.subs && q.cursor.Keys == q.subs && x !in q.list
    requires s in q.emptySubs <==> q.cursor[s] == None
    requires q.cursor[s].Some? ==> q.cursor[s].value in q.list
    ensures s in Holders(Enqueued(q, x, data), n) <==> (n == x || s in Holders(q, n))
  {
    UnreadPushBack(q.list, x, q.cursor[s]);
  }

  lemma EnqueueCounted(q: QueueState, x: NodeId, data: Payload)
    requires Consistent(q) && x !in q.nodes
    ensures WellFormed(Enqueued(q, x, data)) && Counted(Enqueued(q, x, data))
  {
    var q' := Enqueued(q, x, data);
    EnqueueWellFormed(q, x, data);
    forall n
      ensures CountedAt(q', n)
    {
      assert CountedAt(q, n);
      EnqueueHolders(q, x, data, n);
    }
  }

  /** After queueMsg a subscription's backlog is the one it had, plus `data`. */
  lemma EnqueuePending(q: QueueState, x: NodeId, data: Payload, s: Subscription)
    requires WellFormed(q) && x !in q.nodes && s in q.subs
    ensures WellFormed(Enqueued(q, x, data))
    ensures Pending(Enqueued(q, x, data))[s] == Pending(q)[s] + [data]
  {
    var q' := Enqueued(q, x, data);
    EnqueueWellFormed(q, x, data);
    var u := Unread(q.list, q.cursor[s]);
    var u' := Unread(q'.list, q'.cursor[s]);
    assert u' == u + [x] by {
      EnqueuedUnread(q, x, data, s);
    }
    assert Pending(q')[s] == Payloads(q'.nodes, u');
    assert Pending(q)[s] == Payloads(q.nodes, u);
    PayloadsAgree(q.nodes, q'.nodes, u);
    PayloadsAppend(q'.nodes, u, x);
  }

  /** Two backlog maps with the same subscriptions and the same backlog for each are equal. */
  lemma SameBacklogs(a: map<Subscription, seq<Payload>>, b: map<Subscription, seq<Payload>>)
    requires a.Keys == b.Keys
    requires forall s :: s in a ==> a[s] == b[s]
    ensures a == b
  {
  }

  /**
   * Backlogs that kept every entry but `r`'s lose the same thing when `r`
   * leaves as the originals do.
   */
  lemma OthersKept(a: map<Subscription, seq<Payload>>, b: map<Subscription, seq<Payload>>, r: Subscription)
    requires a.Keys == b.Keys
    requires forall s :: s in a && s != r ==> b[s] == a[s]
    ensures b - {r} == a - {r}
  {
    SameBacklogs(b - {r}, a - {r});
  }

  /** A map that differs from `a` at most at `r`, where it holds `v`, is `a` updated at `r`. */
  lemma UpdatedAt(a: map<Subscription, seq<Payload>>, b: map<Subscription, seq<Payload>>, r: Subscription, v: seq<Payload>)
    requires b.Keys == a.Keys + {r} && b[r] == v
    requires forall s :: s in a && s != r ==> b[s] == a[s]
    ensures b == a[r := v]
  {
    SameBacklogs(b, a[r := v]);
  }

  /** Two cursor maps with the same subscriptions and the same cursor for each are equal. */
  lemma SameCursors(a: map<Subscription, Option<NodeId>>, b: map<Subscription, Option<NodeId>>)
    requires a.Keys == b.Keys
    requires forall s :: s in a ==> a[s] == b[s]
    ensures a == b
  {
  }

  /** Every backlog with `d` added at its end. */
  ghost function Appended(p: map<Subscription, seq<Payload>>, d: Payload): map<Subscription, seq<Payload>> {
    map s | s in p :: p[s] + [d]
  }

  /**
   * queueMsg keeps the invariant: the new node is counted once per
   * subscription, earlier nodes keep their counts, and every subscription's
   * backlog grows by exactly the published payload, at the end. When the
   * queue has a subscription the new node is not dead on arrival.
   */
  lemma EnqueueKeeps(q: QueueState, x: NodeId, data: Payload)
    requires Consistent(q) && x !in q.nodes
    ensures Consistent(Enqueued(q, x, data))
    ensures Pending(Enqueued(q, x, data)) == Appended(Pending(q), data)
    ensures Reclaimed(q) && q.subs != {} ==> Reclaimed(Enqueued(q, x, data))
  {
    EnqueueCounted(q, x, data);
    EnqueueBacklogs(q, x, data);
    if Reclaimed(q) && q.subs != {} {
      EnqueueReclaimed(q, x, data);
    }
  }

  /** The node queueMsg adds to a queue with a subscription has a reader. */
  lemma EnqueueReclaimed(q: QueueState, x: NodeId, data: Payload)
    requires Reclaimed(q) && q.subs != {}
    ensures Reclaimed(Enqueued(q, x, data))
  {
    assert |q.subs| > 0;
  }

  lemma EnqueueBacklogs(q: QueueState, x: NodeId, data: Payload)
    requires WellFormed(q) && x !in q.nodes
    ensures WellFormed(Enqueued(q, x, data))
    ensures Pending(Enqueued(q, x, data)) == Appended(Pending(q), data)
  {
    var q' := Enqueued(q, x, data);
    EnqueueWellFormed(q, x, data);
    var p', a := Pending(q'), Appended(Pending(q), data);
    assert p'.Keys == a.Keys;
    forall s | s in p'
      ensures p'[s] == a[s]
    {
      EnqueuePending(q, x, data, s);
    }
    SameBacklogs(p', a);
  }

  /** Two subscriptions in one set of holders make it at least two big. */
  lemma TwoHolders(h: set<Subscription>, r: Subscription, s: Subscription)
    requires r in h && s in h && r != s
    ensures |h| >= 2
  {
    var rest := h - {r, s};
    assert h == rest + {r, s};
    assert |{r, s}| == 2;
  }

  /**
   * A queue about to take a `Read` step for `r` on a busy cursor: well formed,
   * and the count of `r`'s node is right. Every consistent queue is one.
   */
  ghost predicate Reading(q: QueueState, r: Subscription) {
    && WellFormed(q) && r in q.subs && q.cursor[r].Some?
    && q.nodes[q.cursor[r].value].subs == |Holders(q, q.cursor[r].value)|
    && q.nodes[q.cursor[r].value].subs >= 1
  }

  /** When `r` is the only holder of its node, no other subscription has that node left to read. */
  lemma SoleHolder(q: QueueState, r: Subscription, s: Subscription)
    requires Reading(q, r) && s in q.subs && s != r
    requires q.nodes[q.cursor[r].value].subs == 1
    ensures q.cursor[r].value !in Unread(q.list, q.cursor[s])
  {
    var n := q.cursor[r].value;
    if n in Unread(q.list, q.cursor[s]) {
      ReaderHolds(q, r);
      assert s in Holders(q, n);
      TwoHolders(Holders(q, n), r, s);
    }
  }

  /**
   * After readMsg on `r`: `r` has lost its first unread node, and every other
   * subscription has exactly what it had.
   */
  lemma ReadUnread(q: QueueState, r: Subscription, s: Subscription)
    requires Reading(q, r) && s in q.subs
    ensures var q' := Read(q, r).0;
      Unread(q'.list, q'.cursor[s]) ==
        if s == r then Unread(q.list, q.cursor[r])[1..] else Unread(q.list, q.cursor[s])
  {
    if s == r {
      ReadUnreadSelf(q, r);
    } else {
      ReadUnreadOther(q, r, s);
    }
  }

  /** The reader itself loses its first unread node. */
  lemma ReadUnreadSelf(q: QueueState, r: Subscription)
    requires Reading(q, r)
    ensures Unread(Read(q, r).0.list, Read(q, r).0.cursor[r]) == Unread(q.list, q.cursor[r])[1..]
  {
    var n := q.cursor[r].value;
    var p := IndexOf(q.list, n);
    if q.nodes[n].subs == 1 {
      IndexOfDistinct(q.list, p);
      UnreadRemoveAtSuccessor(q.list, p);
    } else {
      UnreadSuccessor(q.list, n);
    }
  }

  /** Any other subscription keeps what it had to read. */
  lemma ReadUnreadOther(q: QueueState, r: Subscription, s: Subscription)
    requires Reading(q, r) && s in q.subs && s != r
    ensures Unread(Read(q, r).0.list, Read(q, r).0.cursor[s]) == Unread(q.list, q.cursor[s])
  {
    var n := q.cursor[r].value;
    if q.nodes[n].subs == 1 {
      var p := IndexOf(q.list, n);
      IndexOfDistinct(q.list, p);
      SoleHolder(q, r, s);
      UnreadRemoveAt(q.list, p, q.cursor[s]);
    }
  }

  /**
   * `q'` is `q` after `r`'s cursor moved one node on: the same subscriptions,
   * `r` has lost its first unread node, and the others have what they had.
   */
  ghost predicate Advanced(q: QueueState, q': QueueState, r: Subscription) {
    && WellFormed(q) && r in q.subs && q.cursor[r].Some? && Unread(q.list, q.cursor[r]) != []
    && q'.subs == q.subs && q'.cursor.Keys == q.subs
    && forall s {:trigger AdvancedAt(q, q', r, s)} :: s in q.subs ==> AdvancedAt(q, q', r, s)
  }

  /** What subscription `s` has to read after `r`'s cursor moved one node on. */
  ghost predicate AdvancedAt(q: QueueState, q': QueueState, r: Subscription, s: Subscription) {
    s in q.subs && s in q.cursor && s in q'.cursor && r in q.cursor && Unread(q.list, q.cursor[r]) != [] ==>
      Unread(q'.list, q'.cursor[s]) ==
        if s == r then Unread(q.list, q.cursor[r])[1..] else Unread(q.list, q.cursor[s])
  }

  /**
   * Every node listed in `q'` was stored in `q` with the same payload; node
   * `n` has lost one count and the others have theirs.
   */
  ghost predicate Decremented(q: QueueState, q': QueueState, n: NodeId) {
    forall k :: k in q'.list ==>
      && k in q.nodes && k in q'.nodes
      && q'.nodes[k].data == q.nodes[k].data
      && q'.nodes[k].subs == if k == n then q.nodes[k].subs - 1 else q.nodes[k].subs
  }

  lemma ReadAdvanced(q: QueueState, r: Subscription)
    requires Reading(q, r)
    ensures Advanced(q, Read(q, r).0, r)
  {
    UnreadStartsAtCursor(q.list, q.cursor[r].value);
    forall s
      ensures AdvancedAt(q, Read(q, r).0, r, s)
    {
      if s in q.subs {
        ReadUnread(q, r, s);
      }
    }
  }

  /**
   * The list after readMsg on `r`: still without repetitions and matching
   * the stored nodes; `r`'s node lost one count and is gone exactly when
   * that was its last.
   */
  lemma ReadNodes(q: QueueState, r: Subscription)
    requires Reading(q, r)
    ensures var q' := Read(q, r).0;
      && Distinct(q'.list)
      && (forall k :: k in q'.nodes <==> k in q'.list)
      && Decremented(q, q', q.cursor[r].value)
      && (forall k :: k in q'.list ==> k in q.list)
      && (q.nodes[q.cursor[r].value].subs > 1 ==> q'.list == q.list)
      && (q.cursor[r].value in q'.list ==> q.nodes[q.cursor[r].value].subs > 1)
  {
    var n := q.cursor[r].value;
    if q.nodes[n].subs == 1 {
      var p := IndexOf(q.list, n);
      IndexOfDistinct(q.list, p);
      DistinctRemoveAt(q.list, p);
    }
  }

  /** After readMsg on `r`, every busy cursor still points into the list. */
  lemma ReadCursors(q: QueueState, r: Subscription)
    requires Reading(q, r)
    ensures var q' := Read(q, r).0;
      forall s :: s in q'.subs && q'.cursor[s].Some? ==> q'.cursor[s].value in q'.list
  {
    var q' := Read(q, r).0;
    ReadAdvanced(q, r);
    forall s | s in q'.subs && q'.cursor[s].Some?
      ensures q'.cursor[s].value in q'.list
    {
      var c := q'.cursor[s].value;
      assert AdvancedAt(q, q', r, s);
      if s != r {
        UnreadStartsAtCursor(q.list, c);
      } else {
        var n := q.cursor[r].value;
        var p := IndexOf(q.list, n);
        assert c == q.list[p + 1];
        assert |Unread(q.list, q.cursor[r])| >= 2;
      }
      UnreadListed(q'.list, c);
    }
  }

  /** After readMsg on `r`, a subscription is idle exactly when its cursor is nil. */
  lemma ReadIdle(q: QueueState, r: Subscription)
    requires Reading(q, r)
    ensures var q' := Read(q, r).0;
      && q'.subs == q.subs && q'.cursor.Keys == q'.subs && q'.emptySubs <= q'.subs
      && forall s :: s in q'.subs ==> (s in q'.emptySubs <==> q'.cursor[s] == None)
  {
    var q' := Read(q, r).0;
    forall s | s in q'.subs
      ensures s in q'.emptySubs <==> q'.cursor[s] == None
    {
      if s != r {
        assert q'.cursor[s] == q.cursor[s];
        assert s in q'.emptySubs <==> s in q.emptySubs;
      }
    }
  }

  /** readMsg on `r` keeps the queue well formed. */
  lemma ReadWellFormed(q: QueueState, r: Subscription)
    requires Reading(q, r)
    ensures WellFormed(Read(q, r).0)
  {
    ReadIdle(q, r);
    ReadNodes(q, r);
    ReadCursors(q, r);
  }

  /**
   * Membership in the holders of `k` after `r`'s cursor moved one node on:
   * `r` no longer holds its old node, nothing else changes.
   */
  lemma StepHolder(q: QueueState, q': QueueState, r: Subscription, k: NodeId, s: Subscription)
    requires WellFormed(q) && r in q.subs && q.cursor[r].Some?
    requires q'.subs == q.subs && q'.cursor.Keys == q.subs
    requires s in q.subs && AdvancedAt(q, q', r, s)
    ensures s in Holders(q', k) <==> s in Holders(q, k) && (k == q.cursor[r].value ==> s != r)
  {
    if s == r {
      var n := q.cursor[r].value;
      var u := Unread(q.list, q.cursor[r]);
      UnreadStartsAtCursor(q.list, n);
      UnreadDistinct(q.list, q.cursor[r]);
      assert u == [n] + u[1..];
      assert k in u[1..] <==> k in u && k != n by {
        if k in u[1..] {
          var j :| 0 <= j < |u[1..]| && u[1..][j] == k;
          DistinctAt(u, 0, j + 1);
        }
      }
    }
  }

  /** After `r`'s cursor moved on, `r`'s old node lost exactly `r` as a holder; no other node changed. */
  lemma StepHolders(q: QueueState, q': QueueState, r: Subscription, k: NodeId)
    requires Advanced(q, q', r)
    ensures Holders(q', k) == if k == q.cursor[r].value then Holders(q, k) - {r} else Holders(q, k)
  {
    forall s | s in q.subs
      ensures s in Holders(q', k) <==> s in Holders(q, k) && (k == q.cursor[r].value ==> s != r)
    {
      assert AdvancedAt(q, q', r, s);
      StepHolder(q, q', r, k, s);
    }
  }

  /** A well-formed successor whose counts went down with the holders keeps every count right. */
  lemma StepCounted(q: QueueState, q': QueueState, r: Subscription)
    requires Consistent(q) && Advanced(q, q', r) && WellFormed(q')
    requires Decremented(q, q', q.cursor[r].value)
    ensures Counted(q')
  {
    forall k
      ensures CountedAt(q', k)
    {
      if k in q'.list {
        assert CountedAt(q, k);
        StepHolders(q, q', r, k);
        if k == q.cursor[r].value {
          ReaderHolds(q, r);
        }
      }
    }
  }

  lemma PayloadsDrop(nodes: map<NodeId, Msg>, ids: seq<NodeId>)
    requires forall k :: k in ids ==> k in nodes
    requires ids != []
    ensures Payloads(nodes, ids[1..]) == Payloads(nodes, ids)[1..]
  {
  }

  /** After `r`'s cursor moved on, `r`'s backlog lost its first payload and every other backlog is unchanged. */
  lemma StepPending(q: QueueState, q': QueueState, r: Subscription, s: Subscription)
    requires Advanced(q, q', r) && WellFormed(q') && Decremented(q, q', q.cursor[r].value)
    requires s in q.subs
    ensures Pending(q')[s] == if s == r then Pending(q)[r][1..] else Pending(q)[s]
  {
    var u := Unread(q.list, q.cursor[s]);
    var u' := Unread(q'.list, q'.cursor[s]);
    assert AdvancedAt(q, q', r, s);
    PayloadsAgree(q.nodes, q'.nodes, u');
    if s == r {
      UnreadStartsAtCursor(q.list, q.cursor[r].value);
      PayloadsDrop(q.nodes, u);
    }
  }

  /** The backlogs after `r`'s cursor moved on: `r`'s lost its head, the rest are as they were. */
  lemma StepBacklogs(q: QueueState, q': QueueState, r: Subscription)
    requires Advanced(q, q', r) && WellFormed(q') && Decremented(q, q', q.cursor[r].value)
    ensures Pending(q') == Pending(q)[r := Pending(q)[r][1..]]
  {
    StepOthers(q, q', r);
    StepPending(q, q', r, r);
    UpdatedAt(Pending(q), Pending(q'), r, Pending(q)[r][1..]);
  }

  /** After `r`'s cursor moved on, every other backlog is unchanged. */
  lemma StepOthers(q: QueueState, q': QueueState, r: Subscription)
    requires Advanced(q, q', r) && WellFormed(q') && Decremented(q, q', q.cursor[r].value)
    ensures forall s :: s in q.subs && s != r ==> Pending(q')[s] == Pending(q)[s]
  {
    forall s | s in q.subs && s != r
      ensures Pending(q')[s] == Pending(q)[s]
    {
      StepPending(q, q', r, s);
    }
  }

  /** A successor whose nodes lost at most their last count keeps no dead node. */
  lemma StepReclaimed(q: QueueState, q': QueueState, n: NodeId)
    requires Reclaimed(q) && Decremented(q, q', n)
    requires forall k :: k in q'.nodes <==> k in q'.list
    requires n in q'.list ==> n in q.nodes && q.nodes[n].subs > 1
    ensures Reclaimed(q')
  {
  }

  /**
   * readMsg on a busy cursor keeps the invariant and takes the first payload
   * off the reader's backlog, and off no other.
   */
  lemma ReadConsistent(q: QueueState, r: Subscription)
    requires Consistent(q) && r in q.subs
    ensures q.cursor[r].Some? ==> Reading(q, r)
    ensures Consistent(Read(q, r).0)
  {
    if q.cursor[r].Some? {
      ReaderCounted(q, r);
      assert CountedAt(q, q.cursor[r].value);
      ReadNodes(q, r);
      ReadAdvanced(q, r);
      ReadWellFormed(q, r);
      StepCounted(q, Read(q, r).0, r);
    }
  }

  lemma ReadBusy(q: QueueState, r: Subscription)
    requires Consistent(q) && r in q.subs && q.cursor[r].Some?
    ensures Reading(q, r)
    ensures Consistent(Read(q, r).0)
    ensures Pending(Read(q, r).0) == Pending(q)[r := Pending(q)[r][1..]]
    ensures Reclaimed(q) ==> Reclaimed(Read(q, r).0)
  {
    ReadConsistent(q, r);
    var q' := Read(q, r).0;
    ReadNodes(q, r);
    ReadAdvanced(q, r);
    StepBacklogs(q, q', r);
    if Reclaimed(q) {
      StepReclaimed(q, q', q.cursor[r].value);
    }
  }

  /**
   * readMsg keeps the invariant. On a nil cursor it reads nothing and changes
   * nothing; otherwise it returns the first payload the subscription had to
   * receive, that payload leaves its backlog, and no other backlog changes.
   * No node that still has a reader is removed.
   */
  lemma ReadKeeps(q: QueueState, r: Subscription)
    requires Consistent(q) && r in q.subs
    ensures q.cursor[r].Some? ==> q.nodes[q.cursor[r].value].subs >= 1
    ensures Consistent(Read(q, r).0)
    ensures Read(q, r).1 == None <==> Pending(q)[r] == []
    ensures Pending(q)[r] == [] ==> Read(q, r).0 == q
    ensures Pending(q)[r] != [] ==>
      Read(q, r).1 == Some(Pending(q)[r][0]) &&
      Pending(Read(q, r).0) == Pending(q)[r := Pending(q)[r][1..]]
    ensures Reclaimed(q) ==> Reclaimed(Read(q, r).0)
  {
    IdleIffCaughtUp(q, r);
    if q.cursor[r].Some? {
      ReadBusy(q, r);
      UnreadStartsAtCursor(q.list, q.cursor[r].value);
    }
  }

  /** readMsg, on backlogs: it pops the head of the reader's backlog (see `Popped`). */
  lemma ReadPopped(q: QueueState, r: Subscription)
    requires Consistent(q) && r in q.subs
    ensures Consistent(Read(q, r).0)
    ensures Popped(Pending(q), Pending(Read(q, r).0), r, Read(q, r).1)
    ensures Reclaimed(q) ==> Reclaimed(Read(q, r).0)
  {
    ReadKeeps(q, r);
  }

  /**
   * Once a subscription is drained (its cursor is nil), removing it keeps the
   * invariant, leaves every node and count as they are, and drops only its
   * own entry of the backlog.
   */
  lemma RemovedSubKeeps(q: QueueState, r: Subscription)
    requires Consistent(q)
    requires r in q.subs ==> q.cursor[r] == None
    ensures Consistent(RemovedSub(q, r))
    ensures Pending(RemovedSub(q, r)) == Pending(q) - {r}
    ensures Reclaimed(q) ==> Reclaimed(RemovedSub(q, r))
  {
    var q' := RemovedSub(q, r);
    forall n
      ensures CountedAt(q', n)
    {
      assert CountedAt(q, n);
      assert Holders(q', n) == Holders(q, n);
    }
    assert Consistent(q');
    assert Pending(q') == Pending(q) - {r};
  }

  /**
   * The loop of delSub, on values: read `r` until a read returns nothing.
   * Each read shortens `r`'s backlog (`ReadKeeps`), so the loop ends.
   */
  function Drained(q: QueueState, r: Subscription): QueueState
    requires Consistent(q) && r in q.subs
    decreases |Pending(q)[r]|
  {
    ReadKeeps(q, r);
    var (q', data) := Read(q, r);
    if data == None then q' else Drained(q', r)
  }

  /**
   * Draining `r` empties its backlog and leaves it with a nil cursor; every
   * other backlog, the subscriptions and the invariant are kept, and no
   * node that still has a reader is removed.
   */
  lemma {:induction false} DrainedKeeps(q: QueueState, r: Subscription)
    requires Consistent(q) && r in q.subs
    ensures Consistent(Drained(q, r)) && Drained(q, r).subs == q.subs
    ensures Drained(q, r).cursor[r] == None
    ensures Pending(Drained(q, r)) == Pending(q)[r := []]
    ensures Reclaimed(q) ==> Reclaimed(Drained(q, r))
    ensures Drained(q, r).nodes.Keys <= q.nodes.Keys
    decreases |Pending(q)[r]|
  {
    ReadKeeps(q, r);
    var (q', data) := Read(q, r);
    if data == None {
      assert Pending(q)[r := []] == Pending(q);
    } else {
      DrainedKeeps(q', r);
      Overwritten(Pending(q), r, Pending(q)[r][1..], []);
    }
  }

  /** Updating a map twice at the same key keeps only the second value. */
  lemma Overwritten(m: map<Subscription, seq<Payload>>, r: Subscription, x: seq<Payload>, y: seq<Payload>)
    ensures m[r := x][r := y] == m[r := y]
  {
    assert m[r := x][r := y].Keys == m[r := y].Keys;
  }

  /**
   * delSub, on values: drain `r`, then drop it from both sets. For a
   * subscription of another queue (whose cursor is nil) nothing changes.
   */
  function DeletedSub(q: QueueState, r: Subscription): QueueState
    requires Consistent(q)
  {
    if r in q.subs then RemovedSub(Drained(q, r), r) else q
  }

  /**
   * delSub keeps the invariant, takes exactly `r` out of the subscriptions
   * and its entry out of the backlogs, and leaves the other backlogs as they
   * were; no node that still has a reader is removed.
   */
  lemma DeletedSubKeeps(q: QueueState, r: Subscription)
    requires Consistent(q)
    ensures Consistent(DeletedSub(q, r))
    ensures DeletedSub(q, r).subs == q.subs - {r}
    ensures Pending(DeletedSub(q, r)) == Pending(q) - {r}
    ensures Reclaimed(q) ==> Reclaimed(DeletedSub(q, r))
    ensures DeletedSub(q, r).nodes.Keys <= q.nodes.Keys
  {
    if r in q.subs {
      DrainThenRemove(q, r);
    } else {
      assert q.subs - {r} == q.subs;
      assert Pending(q) - {r} == Pending(q);
    }
  }

  /** delSub for a subscription of the queue: draining, then removing it from both sets. */
  lemma DrainThenRemove(q: QueueState, r: Subscription)
    requires Consistent(q) && r in q.subs
    ensures var d := RemovedSub(Drained(q, r), r);
      && Consistent(d) && d.subs == q.subs - {r} && Pending(d) == Pending(q) - {r}
      && (Reclaimed(q) ==> Reclaimed(d)) && d.nodes.Keys <= q.nodes.Keys
  {
    var d := Drained(q, r);
    DrainedKeeps(q, r);
    RemovedSubKeeps(d, r);
    UpdatedThenRemoved(Pending(q), r, []);
  }

  /** Updating a map at `r` and then taking `r` out is taking `r` out. */
  lemma UpdatedThenRemoved(m: map<Subscription, seq<Payload>>, r: Subscription, v: seq<Payload>)
    ensures m[r := v] - {r} == m - {r}
  {
    assert (m[r := v] - {r}).Keys == (m - {r}).Keys;
  }

  /**
   * The loop of delSub as queue.go writes it: it stops when readMsg returns
   * a nil slice, which is also what it returns after reading a message whose
   * payload is nil.
   */
  function DrainedAsWritten(q: QueueState, r: Subscription): QueueState
    requires Consistent(q) && r in q.subs
    decreases |Pending(q)[r]|
  {
    ReadKeeps(q, r);
    var (q', data) := Read(q, r);
    if data == None || data == Some(Nil) then q' else DrainedAsWritten(q', r)
  }

  /** delSub as queue.go writes it. */
  function DeletedSubAsWritten(q: QueueState, r: Subscription): QueueState
    requires Consistent(q)
  {
    if r in q.subs then RemovedSub(DrainedAsWritten(q, r), r) else q
  }

  /**
   * A consistent queue on which delSub as written goes wrong: `r` has a nil
   * payload and then an empty one to read, `s` is caught up.
   */
  function NilThenEmpty(r: Subscription, s: Subscription): QueueState {
    QueueState({r, s}, {s}, map[r := Some(0), s := None], [0, 1],
               map[0 := Msg(Nil, 1), 1 := Msg(Bytes([]), 1)])
  }

  /** That queue is well formed. */
  lemma NilThenEmptyWellFormed(r: Subscription, s: Subscription)
    requires r != s
    ensures WellFormed(NilThenEmpty(r, s))
  {
  }

  /** On that queue, `r` alone still has to read each of the two nodes. */
  lemma NilThenEmptyShape(r: Subscription, s: Subscription)
    requires r != s
    ensures WellFormed(NilThenEmpty(r, s))
    ensures Holders(NilThenEmpty(r, s), 0) == {r} && Holders(NilThenEmpty(r, s), 1) == {r}
  {
    var q := NilThenEmpty(r, s);
    NilThenEmptyWellFormed(r, s);
    assert IndexOf(q.list, 0) == 0;
    assert IndexOf(q.list, 1) == 1;
  }

  lemma NilThenEmptyConsistent(r: Subscription, s: Subscription)
    requires r != s
    ensures Consistent(NilThenEmpty(r, s)) && Reclaimed(NilThenEmpty(r, s))
  {
    var q := NilThenEmpty(r, s);
    NilThenEmptyShape(r, s);
    forall n
      ensures CountedAt(q, n)
    {
    }
  }

  /** On that queue, `r` has the nil payload and then the empty one to receive. */
  lemma NilThenEmptyPending(r: Subscription, s: Subscription)
    requires r != s
    ensures WellFormed(NilThenEmpty(r, s)) && Pending(NilThenEmpty(r, s))[r] == [Nil, Bytes([])]
  {
    var q := NilThenEmpty(r, s);
    NilThenEmptyShape(r, s);
    assert Unread(q.list, q.cursor[r]) == [0, 1];
  }

  /** The queue of `NilThenEmpty` once `r` has read its first node. */
  function AfterNil(r: Subscription, s: Subscription): QueueState {
    QueueState({r, s}, {s}, map[r := Some(1), s := None], [1], map[1 := Msg(Bytes([]), 1)])
  }

  /** readMsg on `r` in that queue returns the nil payload. */
  lemma NilRead(r: Subscription, s: Subscription)
    requires r != s
    ensures WellFormed(NilThenEmpty(r, s))
    ensures Read(NilThenEmpty(r, s), r) == (AfterNil(r, s), Some(Nil))
  {
    NilThenEmptyWellFormed(r, s);
    FirstOfTwo();
    NilReadMaps(r, s);
  }

  /** In the list [0, 1], node 0 is first, its successor is 1, and removing it leaves [1]. */
  lemma FirstOfTwo()
    ensures IndexOf([0, 1], 0) == 0 && Successor([0, 1], 0) == Some(1) && RemoveAt([0, 1], 0) == [1]
  {
    assert RemoveAt([0, 1], 0) == [1];
  }

  /** The nodes and cursors of `NilThenEmpty` after `r` read node 0. */
  lemma NilReadMaps(r: Subscription, s: Subscription)
    requires r != s
    ensures NilThenEmpty(r, s).nodes - {0} == AfterNil(r, s).nodes
    ensures NilThenEmpty(r, s).cursor[r := Some(1)] == AfterNil(r, s).cursor
  {
    var q := NilThenEmpty(r, s);
    assert q.nodes - {0} == map[1 := Msg(Bytes([]), 1)];
    assert q.cursor[r := Some(1)] == map[r := Some(1), s := None];
  }

  /** On that queue the loop of delSub as written stops after one read, the nil payload. */
  lemma NilThenEmptyStops(r: Subscription, s: Subscription)
    requires r != s
    ensures Consistent(NilThenEmpty(r, s))
    ensures DrainedAsWritten(NilThenEmpty(r, s), r) == AfterNil(r, s)
  {
    NilThenEmptyConsistent(r, s);
    NilRead(r, s);
  }

  /**
   * delSub as written stops after the nil payload, so the second node keeps
   * the count of `r` after `r` is gone: the only subscription left is caught
   * up and will never read it, and the node is never removed. The invariant
   * is broken; `DeletedSub` keeps it (`DeletedSubKeeps`). The queue is
   * consistent (`NilThenEmptyConsistent`).
   */
  lemma NilPayloadLeaks(r: Subscription, s: Subscription)
    requires r != s
    ensures Consistent(NilThenEmpty(r, s))
    ensures var d := DeletedSubAsWritten(NilThenEmpty(r, s), r);
      && d.subs == {s} && d.cursor == map[s := None] && 1 in d.nodes
      && !Consistent(d)
  {
    NilThenEmptyStops(r, s);
    AfterNilLeaks(r, s);
  }

  /** Removing `r` after its first read leaves node 1 counted for a reader that is gone. */
  lemma AfterNilLeaks(r: Subscription, s: Subscription)
    requires r != s
    ensures var d := RemovedSub(AfterNil(r, s), r);
      && d.subs == {s} && d.cursor == map[s := None] && 1 in d.nodes
      && !Consistent(d)
  {
    var d := QueueState({s}, {s}, map[s := None], [1], map[1 := Msg(Bytes([]), 1)]);
    assert {r, s} - {r} == {s} && {s} - {r} == {s};
    assert map[r := Some(1), s := None] - {r} == map[s := None];
    assert RemovedSub(AfterNil(r, s), r) == d;
    assert Holders(d, 1) == {};
    assert !CountedAt(d, 1);
  }

  /**
   * Reclamation: in a consistent queue where no node is dead, a node is
   * stored exactly when some subscription still has to read it.
   */
  lemma StoredIffNeeded(q: QueueState, n: NodeId)
    requires Consistent(q) && Reclaimed(q)
    ensures n in q.nodes <==> exists s :: s in q.subs && n in Unread(q.list, q.cursor[s])
  {
    if n in q.nodes {
      assert CountedAt(q, n);
      assert |Holders(q, n)| > 0;
      var s :| s in Holders(q, n);
    }
  }

  // ---------------------------------------------------------------------
  // Every later message exactly once, in order.

  /** queueMsg for each of `msgs` in turn, each with the next fresh node id. */
  function EnqueuedAll(q: QueueState, next: NodeId, msgs: seq<Payload>): QueueState
    decreases |msgs|
  {
    if msgs == [] then q else EnqueuedAll(Enqueued(q, next, msgs[0]), next + 1, msgs[1..])
  }

  /**
   * Publishing `msgs` keeps the invariant and the subscriptions, and puts
   * `msgs`, in order, at the end of every subscription's backlog.
   */
  lemma {:induction false} EnqueuedAllAppends(q: QueueState, next: NodeId, msgs: seq<Payload>, sub: Subscription)
    requires Consistent(q) && sub in q.subs && forall k :: k in q.nodes ==> k < next
    ensures Consistent(EnqueuedAll(q, next, msgs)) && EnqueuedAll(q, next, msgs).subs == q.subs
    ensures Pending(EnqueuedAll(q, next, msgs))[sub] == Pending(q)[sub] + msgs
    decreases |msgs|
  {
    if msgs == [] {
      assert Pending(q)[sub] + msgs == Pending(q)[sub];
    } else {
      EnqueueStep(q, next, msgs[0], sub);
      EnqueuedAllAppends(Enqueued(q, next, msgs[0]), next + 1, msgs[1..], sub);
      AppendHead(Pending(q)[sub], msgs);
    }
  }

  /** Appending a non-empty sequence is appending its head, then its tail. */
  lemma AppendHead<T>(a: seq<T>, m: seq<T>)
    requires m != []
    ensures a + m == a + [m[0]] + m[1..]
  {
    assert m == [m[0]] + m[1..];
  }

  /** One queueMsg with the fresh id `next`, as seen by one subscription. */
  lemma EnqueueStep(q: QueueState, next: NodeId, m: Payload, sub: Subscription)
    requires Consistent(q) && sub in q.subs && forall k :: k in q.nodes ==> k < next
    ensures Consistent(Enqueued(q, next, m)) && Enqueued(q, next, m).subs == q.subs
    ensures forall k :: k in Enqueued(q, next, m).nodes ==> k < next + 1
    ensures Pending(Enqueued(q, next, m))[sub] == Pending(q)[sub] + [m]
  {
    EnqueueCounted(q, next, m);
    EnqueuePending(q, next, m, sub);
  }

  /** readMsg `n` times for `sub`: what each read returned. */
  function ReadAll(q: QueueState, sub: Subscription, n: nat): (r: seq<Option<Payload>>)
    requires Consistent(q) && sub in q.subs
    ensures |r| == n
    decreases n
  {
    if n == 0 then []
    else
      ReadKeeps(q, sub);
      var (q', data) := Read(q, sub);
      [data] + ReadAll(q', sub, n - 1)
  }

  /** What `n` reads return on backlog `b`: its payloads in order, then nothing. */
  function Deliveries(b: seq<Payload>, n: nat): (r: seq<Option<Payload>>)
    ensures |r| == n
  {
    seq(n, i requires 0 <= i < n => if i < |b| then Some(b[i]) else None)
  }

  /** The first of `n` reads gives the head of the backlog, or nothing; the rest read on from there. */
  lemma DeliveriesStep(b: seq<Payload>, n: nat)
    requires n > 0
    ensures Deliveries(b, n) ==
      [if b == [] then None else Some(b[0])] + Deliveries(if b == [] then [] else b[1..], n - 1)
  {
  }

  /** `n` reads return the subscription's backlog, in order, and then nothing. */
  lemma {:induction false} ReadAllDelivers(q: QueueState, sub: Subscription, n: nat)
    requires Consistent(q) && sub in q.subs
    ensures ReadAll(q, sub, n) == Deliveries(Pending(q)[sub], n)
    decreases n
  {
    if n > 0 {
      ReadPopped(q, sub);
      var q' := Read(q, sub).0;
      ReadAllDelivers(q', sub, n - 1);
      DeliveriesStep(Pending(q)[sub], n);
    }
  }

  /**
   * Exactly once and in order: a subscription with nothing left to receive
   * (a new one, `AddSubKeeps`) gets `msgs`, as they are published, from the
   * next |msgs| reads, and nothing from the read after them.
   */
  lemma InOrderOnce(q: QueueState, next: NodeId, sub: Subscription, msgs: seq<Payload>)
    requires Consistent(q) && sub in q.subs && Pending(q)[sub] == []
    requires forall k :: k in q.nodes ==> k < next
    ensures Consistent(EnqueuedAll(q, next, msgs)) && sub in EnqueuedAll(q, next, msgs).subs
    ensures var got := ReadAll(EnqueuedAll(q, next, msgs), sub, |msgs| + 1);
      && (forall i :: 0 <= i < |msgs| ==> got[i] == Some(msgs[i]))
      && got[|msgs|] == None
  {
    EnqueuedAllAppends(q, next, msgs, sub);
    ReadAllDelivers(EnqueuedAll(q, next, msgs), sub, |msgs| + 1);
    assert [] + msgs == msgs;
  }

  // ---------------------------------------------------------------------
  // The queue as the Go code keeps it.

  class Queue {
    var subs: set<Subscription>
    var emptySubs: set<Subscription>
    /** The container/list: node ids, front to back. */
    var list: seq<NodeId>
    /** The list's elements, by node id. */
    var nodes: map<NodeId, Msg>
    /** The next unused node id. */
    var nextNode: NodeId
    /** The cursor of every subscription of the queue, as `Valid` ties it to the subscription. */
    ghost var cursors: map<Subscription, Option<NodeId>>

    /** The queue with every subscription's cursor, as a value. */
    ghost function State(): QueueState
      reads this
    {
      QueueState(subs, emptySubs, cursors, list, nodes)
    }

    ghost predicate Valid()
      reads this, subs
    {
      && Consistent(State())
      && Tracks()
      && (forall n :: n in nodes ==> n < nextNode)
    }

    /** The ghost cursor map holds every subscription's actual cursor. */
    ghost predicate Tracks()
      reads this, subs
    {
      cursors.Keys == subs && forall s :: s in subs ==> cursors[s] == s.nextMsg
    }

    /** What each subscription will still receive, in order. */
    ghost function Backlog(): map<Subscription, seq<Payload>>
      reads this
    {
      if WellFormed(State()) then Pending(State()) else map[]
    }

    /** newQueue. */
    constructor ()
      ensures Valid() && Reclaimed(State())
      ensures subs == {} && emptySubs == {} && list == [] && nodes == map[]
      ensures Backlog() == map[]
    {
      subs, emptySubs := {}, {};
      list, nodes := [], map[];
      nextNode := 0;
      cursors := map[];
    }

    /** addSub: register a new, idle subscription; it receives only later messages. */
    method AddSub(sub: Subscription)
      requires Valid() && sub !in subs && sub.nextMsg == None
      modifies this
      ensures Valid() && nextNode == old(nextNode)
      ensures State() == AddedSub(old(State()), sub)
      ensures Backlog() == old(Backlog())[sub := []]
      ensures Reclaimed(old(State())) ==> Reclaimed(State())
    {
      ghost var q := State();
      subs := subs + {sub};
      emptySubs := emptySubs + {sub};
      cursors := cursors[sub := None];
      assert State() == AddedSub(q, sub);
      assert Tracks() && forall n :: n in nodes ==> n < nextNode;
      AddSubKeeps(q, sub);
    }

    /** isEmpty: the queue has no subscription left. */
    function IsEmpty(): (e: bool)
      requires Valid()
      reads this, subs
      ensures e <==> subs == {}
      ensures e <==> Backlog() == map[]
    {
      assert Backlog().Keys == subs;
      |subs| == 0
    }

    /**
     * queueMsg: push a node holding `data` at the back, counted once per
     * subscription, and attach every idle cursor to it; the idle set ends
     * empty and busy cursors are untouched. Every subscription's backlog
     * grows by `data`.
     */
    method QueueMsg(data: Payload)
      requires Valid()
      modifies this, subs
      ensures Valid() && subs == old(subs) && nextNode == old(nextNode) + 1
      ensures State() == Enqueued(old(State()), old(nextNode), data)
      ensures Backlog() == Appended(old(Backlog()), data)
      ensures Reclaimed(old(State())) && subs != {} ==> Reclaimed(State())
    {
      assert nextNode !in nodes;
      EnqueueKeeps(State(), nextNode, data);
      Push(data);
    }

    /** queueMsg in place: the `Enqueued` step with the next unused node id. */
    method Push(data: Payload)
      requires Tracks() && emptySubs <= subs
      modifies this, emptySubs
      ensures Tracks() && subs == old(subs) && nextNode == old(nextNode) + 1
      ensures State() == Enqueued(old(State()), old(nextNode), data)
      ensures nodes.Keys == old(nodes.Keys) + {old(nextNode)}
    {
      var x := nextNode;
      nextNode := nextNode + 1;
      list := list + [x];
      nodes := nodes[x := Msg(data, |subs|)];
      AttachIdle(x);
    }

    /**
     * The loop of queueMsg: point every idle cursor at node `x` and empty the
     * idle set; busy cursors and everything else stay as they are.
     */
    method AttachIdle(x: NodeId)
      requires Tracks() && emptySubs <= subs
      modifies this, emptySubs
      ensures subs == old(subs) && list == old(list) && nodes == old(nodes) && nextNode == old(nextNode)
      ensures emptySubs == {}
      ensures cursors == Attached(old(cursors), old(emptySubs), x)
      ensures Tracks()
    {
      ghost var idle := emptySubs;
      while emptySubs != {}
        invariant subs == old(subs) && list == old(list) && nodes == old(nodes) && nextNode == old(nextNode)
        invariant emptySubs <= idle
        invariant cursors.Keys == subs
        invariant forall s :: s in subs ==> cursors[s] == s.nextMsg
        invariant forall s :: s in subs ==>
          cursors[s] == if s in idle && s !in emptySubs then Some(x) else old(cursors)[s]
        decreases emptySubs
      {
        var s :| s in emptySubs;
        s.nextMsg := Some(x);
        cursors := cursors[s := Some(x)];
        emptySubs := emptySubs - {s};
      }
      SameCursors(cursors, Attached(old(cursors), idle, x));
    }

    /**
     * readMsg: on a nil cursor return nothing and change nothing; otherwise
     * return the payload at the cursor and take the `Read` step. That is the
     * first payload of the subscription's backlog, which loses exactly that
     * payload.
     */
    method ReadMsg(sub: Subscription) returns (data: Option<Payload>)
      requires Valid()
      requires sub in subs || sub.nextMsg == None
      modifies this, sub
      ensures Valid() && subs == old(subs) && nextNode == old(nextNode)
      ensures emptySubs - {sub} == old(emptySubs) - {sub}
      ensures data == None <==> old(sub.nextMsg) == None
      ensures old(sub.nextMsg) == None ==> unchanged(this, sub)
      ensures old(sub.nextMsg).Some? ==> sub in old(subs) && (State(), data) == Read(old(State()), sub)
      ensures sub in subs ==> Popped(old(Backlog()), Backlog(), sub, data)
      ensures Reclaimed(old(State())) ==> Reclaimed(State())
    {
      if sub.nextMsg == None {
        return None;
      }
      ghost var q := State();
      data := Take(sub);
      ReadPopped(q, sub);
    }

    /** readMsg on a busy cursor: the `Read` step, in place. */
    method Take(sub: Subscription) returns (data: Option<Payload>)
      requires Tracks() && WellFormed(State()) && sub in subs && sub.nextMsg.Some?
      modifies this, sub
      ensures Tracks() && subs == old(subs) && nextNode == old(nextNode)
      ensures (State(), data) == Read(old(State()), sub)
      ensures emptySubs - {sub} == old(emptySubs) - {sub} && nodes.Keys <= old(nodes).Keys
    {
      ghost var q := State();
      // The node is a Msg by construction: Go's failed type assertion cannot happen.
      var m := nodes[sub.nextMsg.value];
      var prev := Advance(sub);
      Release(prev);
      data := Some(m.data);
    }

    /**
     * The first half of readMsg: move the cursor of `sub` to the successor
     * of its node, and put `sub` back in the idle set when there is none.
     */
    method Advance(sub: Subscription) returns (prev: NodeId)
      requires Tracks() && sub in subs
      requires sub.nextMsg.Some? && sub.nextMsg.value in list
      modifies this, sub
      ensures Tracks() && prev == old(sub.nextMsg).value
      ensures subs == old(subs) && list == old(list) && nodes == old(nodes) && nextNode == old(nextNode)
      ensures sub.nextMsg == Successor(list, prev)
      ensures cursors == old(cursors)[sub := sub.nextMsg]
      ensures emptySubs == if sub.nextMsg == None then old(emptySubs) + {sub} else old(emptySubs)
    {
      prev := sub.nextMsg.value;
      sub.nextMsg := Successor(list, prev);
      cursors := cursors[sub := sub.nextMsg];
      if sub.nextMsg == None {
        emptySubs := emptySubs + {sub};
      }
    }

    /**
     * The second half of readMsg: node `n` loses one count (a uint64
     * decrement) and leaves the list when the count reaches zero.
     */
    method Release(n: NodeId)
      requires n in list && n in nodes
      modifies this
      ensures subs == old(subs) && emptySubs == old(emptySubs) && cursors == old(cursors)
      ensures nextNode == old(nextNode)
      ensures var left := Decrement(old(nodes)[n].subs);
        if left == 0 then list == RemoveAt(old(list), IndexOf(old(list), n)) && nodes == old(nodes) - {n}
        else list == old(list) && nodes == old(nodes)[n := old(nodes)[n].(subs := left)]
    {
      var m := nodes[n];
      var left := Decrement(m.subs);
      if left == 0 {
        list := RemoveAt(list, IndexOf(list, n));
        nodes := nodes - {n};
      } else {
        nodes := nodes[n := m.(subs := left)];
      }
    }

    /**
     * The loop of delSub, corrected: read the subscription until readMsg reads
     * nothing (`None`), whatever the payload, so that every node it still held
     * loses its count. Go's loop stops at the first nil payload instead (see
     * `DrainedAsWritten` and `NilPayloadLeaks`). The other subscriptions keep
     * their backlogs.
     */
    method Drain(sub: Subscription)
      requires Valid()
      requires sub in subs || sub.nextMsg == None
      modifies this, sub
      ensures Valid() && subs == old(subs) && nextNode == old(nextNode)
      ensures emptySubs - {sub} == old(emptySubs) - {sub}
      ensures sub.nextMsg == None
      ensures old(sub.nextMsg) == None ==> unchanged(this, sub)
      ensures forall s :: s in subs && s != sub ==> Backlog()[s] == old(Backlog())[s]
      ensures Reclaimed(old(State())) ==> Reclaimed(State())
    {
      while true
        invariant Valid() && subs == old(subs) && nextNode == old(nextNode)
        invariant emptySubs - {sub} == old(emptySubs) - {sub}
        invariant sub in subs || sub.nextMsg == None
        invariant old(sub.nextMsg) == None ==> unchanged(this, sub)
        invariant forall s :: s in subs && s != sub ==> Backlog()[s] == old(Backlog())[s]
        invariant Reclaimed(old(State())) ==> Reclaimed(State())
        decreases if sub in subs then |Backlog()[sub]| else 0
      {
        var m := ReadMsg(sub);
        if m == None {
          break;
        }
      }
    }

    /**
     * delSub with the corrected loop (see `DeletedSub` and `NilPayloadLeaks`):
     * drain the subscription, then drop it from both sets. The other
     * subscriptions keep their cursors and their backlogs.
     */
    method DelSub(sub: Subscription)
      requires Valid()
      requires sub in subs || sub.nextMsg == None
      modifies this, sub
      ensures Valid() && nextNode == old(nextNode)
      ensures subs == old(subs) - {sub} && emptySubs == old(emptySubs) - {sub}
      ensures sub.nextMsg == None
      ensures old(sub.nextMsg) == None ==> unchanged(sub)
      ensures Backlog() == old(Backlog()) - {sub}
      ensures Reclaimed(old(State())) ==> Reclaimed(State())
    {
      Drain(sub);
      ghost var q := State();
      subs := subs - {sub};
      emptySubs := emptySubs - {sub};
      cursors := cursors - {sub};
      assert State() == RemovedSub(q, sub);
      assert Tracks() && forall n :: n in nodes ==> n < nextNode;
      RemovedSubKeeps(q, sub);
      OthersKept(old(Backlog()), Pending(q), sub);
    }
  }
}

=== FILE: registry.dfy ===
/**
 * The message broker of mq.go: a map from topic names to queues. Subscribing
 * creates the topic on demand, unsubscribing the last subscription deletes
 * it, publishing to a missing topic drops the message and polling a missing
 * topic is the NoTopic error.
 *
 * Go keeps each queue as a struct value in the map (`map[string]queue`);
 * here the broker keeps each topic's queue as a `QueueState` value and
 * applies to it the steps of queue.go (`AddedSub`, `Enqueued`, `Read`,
 * `DeletedSub`). `Backlogs` is what every subscription of every topic will
 * still receive; each method of `MQ` is proved against it.
 */
module Broker {
  import opened Cursors
  import opened Queues

  // ---------------------------------------------------------------------
  // Counting subscriptions across topics.

  /** Some topic of a non-empty set. */
  ghost function Pick(s: set<string>): (t: string)
    requires s != {}
    ensures t in s
  {
    var t :| t in s; t
  }

  /** The sum of the values of `m`. */
  ghost function Total(m: map<string, nat>): nat
    decreases |m|
  {
    if m == map[] then 0
    else
      var t := Pick(m.Keys);
      assert t in m;
      m[t] + Total(m - {t})
  }

  /** The sum does not depend on which topic is taken first. */
  lemma {:induction false} TotalRemove(m: map<string, nat>, t: string)
    requires t in m
    ensures Total(m) == m[t] + Total(m - {t})
    decreases |m|
  {
    var u := Pick(m.Keys);
    if u != t {
      var rest := m - {u};
      assert |m - {u}| == |m| - 1;
      TotalRemove(rest, t);
      assert rest - {t} == (m - {t}) - {u};
      assert |m - {t}| == |m| - 1;
      TotalRemove(m - {t}, u);
    }
  }

  /** Changing one entry of `m` changes the sum by the difference. */
  lemma TotalUpdate(m: map<string, nat>, t: string, v: nat)
    ensures Total(m[t := v]) + (if t in m then m[t] else 0) == Total(m) + v
  {
    var m' := m[t := v];
    TotalRemove(m', t);
    assert m' - {t} == m - {t};
    if t in m {
      TotalRemove(m, t);
    } else {
      assert m - {t} == m;
    }
  }

  /** When every value is at least one, the sum is at least the number of keys, and zero only for the empty map. */
  lemma {:induction false} TotalAtLeastSize(m: map<string, nat>)
    requires forall t :: t in m ==> m[t] >= 1
    ensures Total(m) >= |m|
    ensures Total(m) == 0 <==> m == map[]
    decreases |m|
  {
    if m != map[] {
      var t := Pick(m.Keys);
      assert |m - {t}| == |m| - 1;
      TotalAtLeastSize(m - {t});
    }
  }


  /** The sum over a map that differs from `a` at most at key `t`. */
  lemma TotalOffOne(a: map<string, nat>, b: map<string, nat>, t: string)
    requires a - {t} == b - {t}
    ensures Total(b) + (if t in a then a[t] else 0) == Total(a) + (if t in b then b[t] else 0)
  {
    if t in a {
      TotalRemove(a, t);
    } else {
      assert a - {t} == a;
    }
    if t in b {
      TotalRemove(b, t);
    } else {
      assert b - {t} == b;
    }
  }

  /** When `b` is `a` with the value at `t` lowered by `d`, or with `t` gone and its value `d`, the sum drops by `d`. */
  lemma TotalLowered(a: map<string, nat>, b: map<string, nat>, t: string, d: nat)
    requires a - {t} == b - {t} && t in a
    requires if t in b then a[t] == b[t] + d else a[t] == d
    ensures Total(b) + d == Total(a)
  {
    TotalOffOne(a, b, t);
  }

  /** Taking `x` out of `s` lowers its size by one exactly when `x` was in it, and empties it exactly when nothing else was. */
  lemma Leave(s: set<Subscription>, x: Subscription)
    ensures |s - {x}| + (if x in s then 1 else 0) == |s|
    ensures s - {x} == {} <==> s <= {x}
  {
    if x in s {
      assert s == (s - {x}) + {x};
    } else {
      assert s - {x} == s;
    }
  }

  /** The entries of `m` whose keys are in `keys`. */
  ghost function Restrict(m: map<string, nat>, keys: set<string>): (r: map<string, nat>)
    ensures r.Keys == m.Keys * keys
    ensures forall t :: t in r ==> r[t] == m[t]
  {
    map t | t in m && t in keys :: m[t]
  }

  /** Taking key `t` out of the restriction takes its value out of the sum. */
  lemma RestrictRemove(m: map<string, nat>, keys: set<string>, t: string)
    requires t in keys && t in m
    ensures Total(Restrict(m, keys)) == m[t] + Total(Restrict(m, keys - {t}))
  {
    TotalRemove(Restrict(m, keys), t);
    assert Restrict(m, keys) - {t} == Restrict(m, keys - {t});
  }

  // ---------------------------------------------------------------------
  // The broker's topics, as a value.

  /** A queue as the broker keeps it: consistent, with a subscription, and no node that nobody will read. */
  ghost predicate Live(q: QueueState) {
    Consistent(q) && Reclaimed(q) && q.subs != {}
  }

  /** Every node of `q` has an id below `next`. */
  ghost predicate Below(q: QueueState, next: NodeId) {
    forall n :: n in q.nodes ==> n < next
  }

  /**
   * The broker invariant: every queue is live and uses only ids below
   * `next`; no subscription belongs to two topics.
   */
  ghost predicate Healthy(qs: map<string, QueueState>, next: NodeId) {
    && (forall t :: t in qs ==> Live(qs[t]) && Below(qs[t], next))
    && (forall t, u :: t in qs && u in qs && t != u ==> qs[t].subs !! qs[u].subs)
  }

  /** For every topic, what each of its subscriptions will still receive, in order. */
  ghost function BacklogsOf(qs: map<string, QueueState>): (b: map<string, map<Subscription, seq<Payload>>>)
    ensures b.Keys == qs.Keys
  {
    map t | t in qs :: if WellFormed(qs[t]) then Pending(qs[t]) else map[]
  }

  /** The number of subscriptions of every topic. */
  ghost function CountsOf(qs: map<string, QueueState>): (c: map<string, nat>)
    ensures c.Keys == qs.Keys
    ensures forall t :: t in c ==> c[t] == |qs[t].subs|
  {
    map t | t in qs :: |qs[t].subs|
  }

  /** Updating a map at `k` and then taking `k` out is taking `k` out. */
  lemma UpdateMinus<V>(m: map<string, V>, k: string, v: V)
    ensures m[k := v] - {k} == m - {k}
  {
    assert (m[k := v] - {k}).Keys == (m - {k}).Keys;
  }

  /** Taking `k` out twice is taking it out once. */
  lemma MinusMinus<V>(m: map<string, V>, k: string)
    ensures m - {k} - {k} == m - {k}
  {
    assert (m - {k} - {k}).Keys == (m - {k}).Keys;
  }

  /** Replacing one topic's queue by a live queue below `next'` whose subscriptions are nobody else's keeps the invariant. */
  lemma HealthyUpdate(qs: map<string, QueueState>, next: NodeId, next': NodeId, topic: string, q: QueueState)
    requires Healthy(qs, next) && next <= next'
    requires Live(q) && Below(q, next')
    requires forall t :: t in qs && t != topic ==> q.subs !! qs[t].subs
    ensures Healthy(qs[topic := q], next')
  {
    var qs' := qs[topic := q];
    forall t | t in qs'
      ensures Live(qs'[t]) && Below(qs'[t], next')
    {
      if t != topic {
        assert qs'[t] == qs[t];
        assert Below(qs[t], next);
      }
    }
    forall t, u | t in qs' && u in qs' && t != u
      ensures qs'[t].subs !! qs'[u].subs
    {
    }
  }

  /** Deleting a topic keeps the invariant. */
  lemma HealthyRemove(qs: map<string, QueueState>, next: NodeId, topic: string)
    requires Healthy(qs, next)
    ensures Healthy(qs - {topic}, next)
  {
    var qs' := qs - {topic};
    forall t | t in qs'
      ensures Live(qs'[t]) && Below(qs'[t], next)
    {
      assert qs'[t] == qs[t];
    }
    forall t, u | t in qs' && u in qs' && t != u
      ensures qs'[t].subs !! qs'[u].subs
    {
      assert qs'[t] == qs[t] && qs'[u] == qs[u];
    }
  }

  lemma CountsUpdate(qs: map<string, QueueState>, topic: string, q: QueueState)
    ensures CountsOf(qs[topic := q]) == CountsOf(qs)[topic := |q.subs|]
  {
    var a, b := CountsOf(qs[topic := q]), CountsOf(qs)[topic := |q.subs|];
    assert a.Keys == b.Keys;
  }

  lemma CountsRemove(qs: map<string, QueueState>, topic: string)
    ensures CountsOf(qs - {topic}) == CountsOf(qs) - {topic}
  {
    var a, b := CountsOf(qs - {topic}), CountsOf(qs) - {topic};
    assert a.Keys == b.Keys;
  }

  /** The backlogs of the topics after one topic's queue is replaced by `q`. */
  lemma BacklogsUpdate(qs: map<string, QueueState>, topic: string, q: QueueState)
    requires WellFormed(q)
    ensures BacklogsOf(qs[topic := q]) == BacklogsOf(qs)[topic := Pending(q)]
  {
    var a, b := BacklogsOf(qs[topic := q]), BacklogsOf(qs)[topic := Pending(q)];
    assert a.Keys == b.Keys;
    forall t | t in a
      ensures a[t] == b[t]
    {
    }
  }

  /** The backlogs of the topics after one topic is deleted. */
  lemma BacklogsRemove(qs: map<string, QueueState>, topic: string)
    ensures BacklogsOf(qs - {topic}) == BacklogsOf(qs) - {topic}
  {
    var a, b := BacklogsOf(qs - {topic}), BacklogsOf(qs) - {topic};
    assert a.Keys == b.Keys;
    forall t | t in a
      ensures a[t] == b[t]
    {
    }
  }

  // ---------------------------------------------------------------------
  // One queue step keeps a queue live.

  /** addSub on a live queue, or on a new one, gives a live queue using the same ids. */
  lemma SubscribeLive(q: QueueState, next: NodeId, sub: Subscription)
    requires Consistent(q) && Reclaimed(q) && Below(q, next) && sub !in q.subs
    ensures Live(AddedSub(q, sub)) && Below(AddedSub(q, sub), next)
    ensures AddedSub(q, sub).subs == q.subs + {sub}
  {
    AddSubKeeps(q, sub);
  }

  /** queueMsg with the fresh id `next` on a live queue gives a live queue below `next + 1`. */
  lemma PublishLive(q: QueueState, next: NodeId, msg: Payload)
    requires Live(q) && Below(q, next)
    ensures Live(Enqueued(q, next, msg)) && Below(Enqueued(q, next, msg), next + 1)
    ensures Enqueued(q, next, msg).subs == q.subs
  {
    EnqueueKeeps(q, next, msg);
  }

  /** readMsg on a live queue gives a live queue using no new id. */
  lemma PollLive(q: QueueState, next: NodeId, sub: Subscription)
    requires Live(q) && Below(q, next) && sub in q.subs
    ensures Live(Read(q, sub).0) && Below(Read(q, sub).0, next)
    ensures Read(q, sub).0.subs == q.subs
  {
    ReadKeeps(q, sub);
  }

  /** delSub on a live queue gives a consistent, reclaimed queue using no new id, without `sub`. */
  lemma UnsubscribeLive(q: QueueState, next: NodeId, sub: Subscription)
    requires Live(q) && Below(q, next)
    ensures Consistent(DeletedSub(q, sub)) && Reclaimed(DeletedSub(q, sub)) && Below(DeletedSub(q, sub), next)
    ensures DeletedSub(q, sub).subs == q.subs - {sub}
  {
    DeletedSubKeeps(q, sub);
  }

  // ---------------------------------------------------------------------
  // Each broker operation, on values: the invariant, the backlogs and the
  // number of subscriptions.

  /** The queue a subscription to `topic` joins: the topic's own, or a new one. */
  function Joined(qs: map<string, QueueState>, topic: string): QueueState {
    if topic in qs then qs[topic] else NewQueue()
  }

  /** Subscribe, on values: a subscription of no topic joining `topic` keeps the invariant. */
  lemma SubscribeKeeps(qs: map<string, QueueState>, next: NodeId, topic: string, sub: Subscription)
    requires Healthy(qs, next)
    requires forall t :: t in qs ==> sub !in qs[t].subs
    ensures Healthy(qs[topic := AddedSub(Joined(qs, topic), sub)], next)
  {
    var q := Joined(qs, topic);
    assert Consistent(q) && Reclaimed(q) && Below(q, next);
    SubscribeLive(q, next, sub);
    HealthyUpdate(qs, next, next, topic, AddedSub(q, sub));
  }

  /**
   * Subscribe, on values: the newcomer has nothing to receive, and every
   * other backlog, of the topic or of another topic, is kept.
   */
  lemma SubscribeBacklogs(qs: map<string, QueueState>, next: NodeId, topic: string, sub: Subscription)
    requires Healthy(qs, next)
    requires forall t :: t in qs ==> sub !in qs[t].subs
    ensures var b := BacklogsOf(qs[topic := AddedSub(Joined(qs, topic), sub)]);
      && b - {topic} == BacklogsOf(qs) - {topic}
      && b[topic] == (if topic in qs then BacklogsOf(qs)[topic][sub := []] else map[sub := []])
  {
    var q := Joined(qs, topic);
    AddSubKeeps(q, sub);
    BacklogsUpdate(qs, topic, AddedSub(q, sub));
    UpdateMinus(BacklogsOf(qs), topic, Pending(AddedSub(q, sub)));
    if topic !in qs {
      assert Pending(q)[sub := []] == map[sub := []];
    }
  }

  /** Subscribe, on values: one subscription more in total. */
  lemma SubscribeCounts(qs: map<string, QueueState>, topic: string, sub: Subscription)
    requires forall t :: t in qs ==> sub !in qs[t].subs
    ensures Total(CountsOf(qs[topic := AddedSub(Joined(qs, topic), sub)])) == Total(CountsOf(qs)) + 1
  {
    var q := Joined(qs, topic);
    var q' := AddedSub(q, sub);
    CountsUpdate(qs, topic, q');
    assert |q'.subs| == |q.subs| + 1;
    TotalUpdate(CountsOf(qs), topic, |q'.subs|);
  }

  /** The topics after `sub` left the queue `q` of `topic`: without the topic when `q` has no subscription left. */
  function Left(qs: map<string, QueueState>, topic: string, q: QueueState): map<string, QueueState> {
    if q.subs == {} then qs - {topic} else qs[topic := q]
  }

  /**
   * Unsubscribe, on values, for a present topic: `sub` is drained and
   * leaves, the invariant is kept, and the topic goes exactly when `sub`
   * was all it had.
   */
  lemma UnsubscribeKeeps(qs: map<string, QueueState>, next: NodeId, topic: string, sub: Subscription)
    requires Healthy(qs, next) && topic in qs
    ensures Healthy(Left(qs, topic, DeletedSub(qs[topic], sub)), next)
    ensures DeletedSub(qs[topic], sub).subs == {} <==> qs[topic].subs <= {sub}
  {
    var q := DeletedSub(qs[topic], sub);
    assert Live(qs[topic]) && Below(qs[topic], next);
    UnsubscribeLive(qs[topic], next, sub);
    Leave(qs[topic].subs, sub);
    if q.subs == {} {
      HealthyRemove(qs, next, topic);
    } else {
      HealthyUpdate(qs, next, next, topic, q);
    }
  }

  /** Unsubscribe, on values: only `sub`'s backlog goes, with the topic when it has no subscription left. */
  lemma UnsubscribeBacklogs(qs: map<string, QueueState>, next: NodeId, topic: string, sub: Subscription)
    requires Healthy(qs, next) && topic in qs
    ensures BacklogsOf(Left(qs, topic, DeletedSub(qs[topic], sub))) ==
      if qs[topic].subs <= {sub} then BacklogsOf(qs) - {topic}
      else BacklogsOf(qs)[topic := BacklogsOf(qs)[topic] - {sub}]
  {
    var q := DeletedSub(qs[topic], sub);
    DeletedSubKeeps(qs[topic], sub);
    Leave(qs[topic].subs, sub);
    if q.subs == {} {
      BacklogsRemove(qs, topic);
    } else {
      BacklogsUpdate(qs, topic, q);
    }
  }

  /** Unsubscribe, on values: one subscription less in total exactly when `sub` was one of the topic's. */
  lemma UnsubscribeCounts(qs: map<string, QueueState>, next: NodeId, topic: string, sub: Subscription)
    requires Healthy(qs, next) && topic in qs
    ensures Total(CountsOf(Left(qs, topic, DeletedSub(qs[topic], sub)))) + (if sub in qs[topic].subs then 1 else 0)
      == Total(CountsOf(qs))
  {
    var q := DeletedSub(qs[topic], sub);
    var d := if sub in qs[topic].subs then 1 else 0;
    DeletedSubKeeps(qs[topic], sub);
    Leave(qs[topic].subs, sub);
    if q.subs == {} {
      CountsRemove(qs, topic);
      MinusMinus(CountsOf(qs), topic);
      TotalLowered(CountsOf(qs), CountsOf(qs) - {topic}, topic, d);
    } else {
      CountsUpdate(qs, topic, q);
      UpdateMinus(CountsOf(qs), topic, |q.subs|);
      TotalLowered(CountsOf(qs), CountsOf(qs)[topic := |q.subs|], topic, d);
    }
  }

  /** Publish, on values, to a present topic with the fresh id `next`: the invariant holds with the next id after it. */
  lemma PublishKeeps(qs: map<string, QueueState>, next: NodeId, topic: string, msg: Payload)
    requires Healthy(qs, next) && topic in qs
    ensures Healthy(qs[topic := Enqueued(qs[topic], next, msg)], next + 1)
  {
    var q := qs[topic];
    assert Live(q) && Below(q, next);
    PublishLive(q, next, msg);
    HealthyUpdate(qs, next, next + 1, topic, Enqueued(q, next, msg));
  }

  /** Publish, on values: every subscription of the topic gets `msg` at the end of its backlog; other topics are kept. */
  lemma PublishBacklogs(qs: map<string, QueueState>, next: NodeId, topic: string, msg: Payload)
    requires Healthy(qs, next) && topic in qs
    ensures BacklogsOf(qs[topic := Enqueued(qs[topic], next, msg)])
         == BacklogsOf(qs)[topic := Appended(BacklogsOf(qs)[topic], msg)]
  {
    var q := qs[topic];
    assert Consistent(q) && Below(q, next);
    EnqueueKeeps(q, next, msg);
    BacklogsUpdate(qs, topic, Enqueued(q, next, msg));
  }

  /** Poll, on values, for a subscription of a present topic: the invariant is kept. */
  lemma PollKeeps(qs: map<string, QueueState>, next: NodeId, topic: string, sub: Subscription)
    requires Healthy(qs, next) && topic in qs && sub in qs[topic].subs
    ensures Healthy(qs[topic := Read(qs[topic], sub).0], next)
  {
    var q := qs[topic];
    assert Live(q) && Below(q, next);
    PollLive(q, next, sub);
    HealthyUpdate(qs, next, next, topic, Read(q, sub).0);
  }

  /**
   * Poll, on values: readMsg pops the head of the subscription's backlog,
   * or returns nothing when it has caught up; every other topic is kept.
   */
  lemma PollBacklogs(qs: map<string, QueueState>, next: NodeId, topic: string, sub: Subscription)
    requires Healthy(qs, next) && topic in qs && sub in qs[topic].subs
    ensures var (q', data) := Read(qs[topic], sub);
      && Popped(BacklogsOf(qs)[topic], BacklogsOf(qs[topic := q'])[topic], sub, data)
      && BacklogsOf(qs[topic := q']) - {topic} == BacklogsOf(qs) - {topic}
  {
    var q := qs[topic];
    ReadPopped(q, sub);
    BacklogsUpdate(qs, topic, Read(q, sub).0);
    UpdateMinus(BacklogsOf(qs), topic, Pending(Read(q, sub).0));
  }

  class MQ {
    var queues: map<string, QueueState>
    /** The next unused list-node id: every message published gets a new one, as PushBack makes a new element. */
    var nextNode: NodeId

    ghost predicate Valid()
      reads this
    {
      Healthy(queues, nextNode)
    }

    /** For every topic, what each of its subscriptions will still receive, in order. */
    ghost function Backlogs(): map<string, map<Subscription, seq<Payload>>>
      reads this
    {
      BacklogsOf(queues)
    }

    /** The number of subscriptions of every topic. */
    ghost function Counts(): map<string, nat>
      reads this
    {
      CountsOf(queues)
    }

    /** New: a broker without topics. */
    constructor ()
      ensures Valid() && queues == map[]
    {
      queues := map[];
      nextNode := 0;
    }

    /**
     * Subscribe: a fresh subscription joins `topic`, whose queue is created
     * when the topic is missing. It has nothing to receive yet, the other
     * subscriptions of the topic keep their backlogs, every other topic is
     * untouched, and there is one subscription more in total.
     */
    method Subscribe(topic: string) returns (sub: Subscription)
      requires Valid()
      modifies this
      ensures Valid() && fresh(sub) && nextNode == old(nextNode)
      ensures queues == old(queues)[topic := AddedSub(Joined(old(queues), topic), sub)]
      ensures Backlogs() - {topic} == old(Backlogs()) - {topic}
      ensures Backlogs()[topic] == if topic in old(queues) then old(Backlogs()[topic])[sub := []] else map[sub := []]
      ensures Total(Counts()) == old(Total(Counts())) + 1
    {
      sub := new Subscription();
      queues := queues[topic := AddedSub(Joined(queues, topic), sub)];
      SubscribeKeeps(old(queues), nextNode, topic, sub);
      SubscribeBacklogs(old(queues), nextNode, topic, sub);
      SubscribeCounts(old(queues), topic, sub);
    }

    /**
     * Unsubscribe: on a missing topic nothing happens. Otherwise `sub` is
     * drained and leaves the queue, whose other subscriptions keep their
     * backlogs, and the topic is deleted exactly when that was its last
     * subscription. Every other topic is untouched, and there is one
     * subscription less in total when `sub` was one of the topic's. When
     * the topic is present, a subscription of another topic is not handed
     * in (see README).
     */
    method Unsubscribe(topic: string, sub: Subscription)
      requires Valid()
      requires topic in queues ==> forall t :: t in queues && t != topic ==> sub !in queues[t].subs
      modifies this
      ensures Valid() && nextNode == old(nextNode)
      ensures topic !in old(queues) ==> queues == old(queues)
      ensures topic in old(queues) ==> queues == Left(old(queues), topic, DeletedSub(old(queues[topic]), sub))
      ensures topic in old(queues) ==>
        Backlogs() == if old(queues[topic].subs) <= {sub} then old(Backlogs()) - {topic}
                      else old(Backlogs())[topic := old(Backlogs()[topic]) - {sub}]
      ensures Total(Counts()) + (if topic in old(queues) && sub in old(queues[topic].subs) then 1 else 0)
        == old(Total(Counts()))
    {
      if topic !in queues {
        return;
      }
      var q := DeletedSub(queues[topic], sub);
      if |q.subs| == 0 {
        queues := queues - {topic};
      } else {
        queues := queues[topic := q];
      }
      UnsubscribeKeeps(old(queues), nextNode, topic, sub);
      UnsubscribeBacklogs(old(queues), nextNode, topic, sub);
      UnsubscribeCounts(old(queues), nextNode, topic, sub);
    }

    /**
     * Publish: every subscription of `topic` gets `msg` at the end of its
     * backlog; on a missing topic the message is dropped. Every other topic
     * is untouched.
     */
    method Publish(topic: string, msg: Payload)
      requires Valid()
      modifies this
      ensures Valid()
      ensures topic !in old(queues) ==> queues == old(queues) && nextNode == old(nextNode)
      ensures topic in old(queues) ==>
        && queues == old(queues)[topic := Enqueued(old(queues[topic]), old(nextNode), msg)]
        && nextNode == old(nextNode) + 1
      ensures topic in old(queues) ==>
        Backlogs() == old(Backlogs())[topic := Appended(old(Backlogs()[topic]), msg)]
    {
      if topic in queues {
        PublishKeeps(queues, nextNode, topic, msg);
        PublishBacklogs(queues, nextNode, topic, msg);
        queues := queues[topic := Enqueued(queues[topic], nextNode, msg)];
        nextNode := nextNode + 1;
      }
    }

    /**
     * Poll: on a missing topic, the NoTopic error and no payload. Otherwise
     * no error, and readMsg on `sub`: the head of its backlog, which loses
     * it, or nothing when it has caught up or is no subscription of any
     * topic. Every other topic is untouched.
     */
    method Poll(topic: string, sub: Subscription) returns (data: Option<Payload>, err: Option<QueueError>)
      requires Valid()
      requires topic in queues ==> forall t :: t in queues && t != topic ==> sub !in queues[t].subs
      modifies this
      ensures Valid() && nextNode == old(nextNode) && queues.Keys == old(queues.Keys)
      ensures topic !in old(queues) ==> data == None && err == Some(NoTopic) && queues == old(queues)
      ensures topic in old(queues) ==> err == None
      ensures topic in old(queues) && sub !in old(queues[topic].subs) ==> data == None && queues == old(queues)
      ensures topic in old(queues) && sub in old(queues[topic].subs) ==>
        && (queues, data) == (old(queues)[topic := Read(old(queues[topic]), sub).0], Read(old(queues[topic]), sub).1)
        && Popped(old(Backlogs()[topic]), Backlogs()[topic], sub, data)
        && Backlogs() - {topic} == old(Backlogs()) - {topic}
    {
      if topic !in queues {
        return None, Some(NoTopic);
      }
      var q := queues[topic];
      if sub !in q.subs {
        // Its cursor is nil: readMsg returns nothing.
        return None, None;
      }
      var (q', m) := Read(q, sub);
      queues := queues[topic := q'];
      data, err := m, None;
      PollKeeps(old(queues), nextNode, topic, sub);
      PollBacklogs(old(queues), nextNode, topic, sub);
    }

    /** Topics: the number of topics. */
    function Topics(): nat
      reads this
    {
      |queues|
    }

    /** Subscriptions: the number of subscriptions, summed over the topics in any order. */
    method Subscriptions() returns (n: nat)
      ensures n == Total(Counts())
    {
      ghost var c := Counts();
      n := 0;
      var left := queues.Keys;
      assert Restrict(c, left) == c;
      while left != {}
        invariant left <= queues.Keys
        invariant n + Total(Restrict(c, left)) == Total(c)
        decreases |left|
      {
        var t :| t in left;
        RestrictRemove(c, left, t);
        n := n + |queues[t].subs|;
        left := left - {t};
      }
      assert Restrict(c, left) == map[];
    }

    /**
     * There are never more topics than subscriptions, and there is no topic
     * exactly when there is no subscription: a topic goes with its last one.
     */
    lemma TopicsAtMostSubscriptions()
      requires Valid()
      ensures Topics() <= Total(Counts())
      ensures Topics() == 0 <==> Total(Counts()) == 0
    {
      var c := Counts();
      forall t | t in c
        ensures c[t] >= 1
      {
        assert queues[t].subs != {};
      }
      TotalAtLeastSize(c);
    }
  }
}
